=== FILE: README.md ===
# Collaborative hex-map rooms, modelled in Dafny

The system is a real-time collaborative hex-map editor. A Socket.IO server
keeps an in-memory registry of rooms. Each room has a name, painted cells
(`hex_data`), drawn lines, connected users, an owner and activity
timestamps. Clients create, join, leave and delete rooms, paint and erase
cells and draw lines; every change is relayed to the other sessions in the
room. Next to the registry, a SQLite repository stores rooms, cells, lines
and units. The cell table is sparse: a cell at the default colour
`lightgray` has no row.

The model covers three parts:

- the socket handlers, as pure steps from registry state to next state plus
  the events emitted, each with the exact set of sessions it reaches; each
  handler runs to completion before the next one starts (see Left out);
- the repository operations on a database whose tables are finite maps
  keyed by their primary keys, each write running inside the
  commit-or-roll-back transaction;
- the schema that `init_database` creates and its two idempotent column
  migrations.

Modules:

- `Wrappers`: `Option` and `Result`.
- `Text`: Python's `str.strip()`, ASCII `str.upper()`, truthiness of
  optional strings, and decimal rendering of naturals.
- `Entities`: cell keys, colours, the default colour and the line payload
  shared by both sides.
- `Schema` (`server/db.py`): tables, migrations, `init_database`, and
  `db_transaction` as `Transaction`.
- `Store` (`server/repository.py`): room, cell, line and unit operations,
  the bulk import `replace_room_state`, and the read-back `get_room_state`.
- `Listing`: the stable most-recent-first ordering of `get_rooms`.
- `Server` (`server/main.py`): the registry, sessions, Socket.IO channels
  and the handlers.
- `ServerProps`: properties across handlers. These are the line filter of
  `hex_erase`, the session/room invariant every handler keeps, relay
  recipients, and join/leave composition.
- `Agreement`: the in-memory cells and the sparse table give every cell
  the same effective colour after the same paints and erases.

Modelling choices:

- Socket.IO rooms ("channels") are modelled apart from each room's `users`.
  `enter_room`/`leave_room` change channels, and an emit with
  `room=room_id` reaches the channel, minus the sender under `skip_sid`.
  After a disconnect the framework removes the sid from every channel.
- A session's `is_authenticated` and `username` are always set together, so
  they are one field, `identity`.
- A handler that raises `KeyError` part-way keeps the writes it made before
  raising. Three handlers do this:
  - `create_room`/`join_room` for a sid without a session: the room is
    created or the channel entered, then nothing more happens.
  - `hex_erase`: when a line lacks the endpoint the filter reads, the
    colour reset stays and nothing more happens.
- Clock readings, uuid draws and the acting username are parameters.
- The source and its own descriptions disagree in two places; the model
  follows the code:
  - `has_password` is the truthiness of the password hash, so an empty hash
    gives false.
  - Deleting a room does not cascade (see Findings).

## Model

| member | source | states |
|---|---|---|
| Text.Strip | server/main.py:302 | the result is the input with exactly the leading and trailing white space removed: what goes is all white space and what stays starts and ends with non-space |
| Text.StripEmptyIffBlank | server/main.py:302-313 | the stripped name is empty exactly when the given name is white space only, which is when "Unnamed Room" is used |
| Text.Upper | server/main.py:220-222 | upper-casing keeps the length and maps each ASCII lower-case letter to its capital and every other character to itself |
| Text.UpperIdempotent | server/main.py:354 | upper-casing an upper-cased code changes nothing, so generated ids are their own lookup keys |
| Text.NatToString | server/repository.py:377 | the decimal rendering of an index is a non-empty string of digits, with no leading zero unless the index is 0, whose digits denote exactly that index; one digit exactly for indices below ten |
| Text.NatToStringInjective | server/repository.py:377 | different indices render to different strings |
| Schema.MissingColumns | server/db.py:133-136 | the columns still to add are exactly the required ones whose names are not yet present |
| Schema.UsersTable | server/db.py:47-53 | users are keyed by `username` and not tied to rooms |
| Schema.TokensTable | server/db.py:58-64 | tokens are keyed by `token` and not tied to rooms |
| Schema.RoomsTable | server/db.py:69-79 | rooms are keyed by `room_id` alone, require a name, and declare `version INTEGER NOT NULL DEFAULT 1` |
| Schema.HexesTable | server/db.py:84-92 | cells are keyed by the pair (room, cell), require a colour, and are declared to go with their room |
| Schema.LinesTable | server/db.py:97-104 | lines are keyed by `line_id` alone, so ids are unique across rooms; room and payload are required; declared to go with their room |
| Schema.UnitsTable | server/db.py:109-120 | units are keyed by `unit_id` alone; name, colour and cell are required; declared to go with their room |
| Schema.AddMissingColumns | server/db.py:123-138 | the migration keeps the existing columns as a prefix, appends exactly the missing required ones, and leaves every required name present |
| Schema.AddMissingColumnsIdempotent | server/db.py:123-140 | running the units migration a second time adds nothing |
| Schema.EnsureUnitsColumns | server/db.py:123-140 | the migration keeps the table's key, cascade and existing columns as a prefix, appends exactly those of `icon_path`, `tint_color`, `description` and `parent_unit_id` that were missing, and afterwards every one of the four names is present |
| Schema.EnsureRoomsColumns | server/db.py:143-151 | afterwards rooms has `map_filename`; a table that had it is unchanged, otherwise exactly that nullable TEXT column is appended |
| Schema.CreateIfAbsent | server/db.py:47-120 | `CREATE TABLE IF NOT EXISTS` keeps an existing table exactly and otherwise creates the declared one |
| Schema.InitRooms | server/db.py:143-151 | a missing rooms table becomes its declaration plus `map_filename`; an existing one keeps key, cascade and columns as a prefix; `map_filename` is present either way |
| Schema.InitUnits | server/db.py:109-140 | a missing units table becomes its declaration plus the four optional columns; an existing one keeps key, cascade and columns as a prefix; the four names are present either way |
| Schema.FreshUnitsColumns | server/db.py:109-140 | on a freshly created units table the migration appends all four optional columns, in order |
| Schema.InitDatabase | server/db.py:39-168 | every table exists afterwards; users, tokens, hexes and lines that existed are kept as they were (`IF NOT EXISTS`) and missing ones are exactly their declarations; a missing rooms or units table is its declaration plus the migration columns; an existing rooms or units table keeps its key, cascade and columns as a prefix, and both migrations' columns are present |
| Schema.InitDatabaseIdempotent | server/db.py:39-151 | initialising an initialised database changes nothing |
| Schema.RoomsVersionDefaultsToOne | server/db.py:69-79 | a fresh rooms table declares `version INTEGER NOT NULL DEFAULT 1` |
| Schema.Transaction | server/db.py:25-37 | a block that completes commits its writes and reports no error; one that raises rolls back to the state before the block and re-raises its error |
| Store.CreateRoom | server/repository.py:116-127 | the insert fails, changing nothing, exactly when the room id is taken; otherwise the new row has version 1, the given name, owner and hash, `has_password` iff the hash is truthy, and equal created/last-activity times, and other rooms are untouched |
| Store.IncrementRoomVersion | server/repository.py:217-226 | a known room's version goes up by one and is returned, with nothing else changed; an unknown room changes nothing and reads as 1 |
| Store.VersionCountsIncrements | server/repository.py:217-226 | after n increments the version has grown by exactly n and no other room changed |
| Store.DeleteRoom | server/repository.py:228-232 | as written: the room row is gone, while its hexes, lines and units stay |
| Store.DeleteRoomCascade | server/db.py:84-119 | with the declared `ON DELETE CASCADE` enforced, no hex, line or unit row of the room remains and every other room's rows are kept |
| Store.UpdateHex | server/repository.py:258-274 | painting the default colour deletes the cell's row and any other colour upserts it; either way the stored colour reads back as painted, other cells are untouched, and sparseness is kept |
| Store.EraseHex | server/repository.py:276-280 | the cell has no row afterwards and reads as the default; other cells and sparseness are kept |
| Store.EraseAfterUpdate | server/repository.py:258-280 | erasing after painting is the same as erasing: the paint leaves no trace |
| Store.AddLine | server/repository.py:283-291 | the insert fails, changing nothing, exactly when the line id is used by any room; otherwise exactly that row is added |
| Store.DeleteLinesByHex | server/repository.py:293-308 | exactly the room's lines with a start or end key on the cell are removed; the rest, including other rooms' lines, are unchanged |
| Store.AddUnit | server/repository.py:321-330 | the insert succeeds exactly when name, colour and hex key are present and the unit id is unused; a missing field raises for the first missing one; success adds exactly that unit row, unmoved |
| Store.MoveUnit | server/repository.py:332-340 | only a unit of this room moves: its hex key, moved-at and moved-by are set; any other unit id changes nothing |
| Store.DeleteUnit | server/repository.py:342-346 | only a unit of this room is removed; a unit of another room or an unknown id changes nothing |
| Store.DeleteUndoesAdd | server/repository.py:321-346 | deleting a unit just added restores the database exactly |
| Store.DeleteUnitsByHex | server/repository.py:348-352 | exactly the room's units on the cell are removed; all other unit rows are unchanged |
| Store.InsertLinesAccepts | server/repository.py:375-381 | the line inserts of an import succeed exactly when the ids are pairwise distinct and none is already in the table |
| Store.InsertLinesRows | server/repository.py:375-381 | completed line inserts keep every existing row, store line i under id i, and add no other id |
| Store.LineKey | server/repository.py:377 | a line with a truthy `id` is stored under it; otherwise under the room id, `_line_`, then decimal digits denoting its index |
| Store.SyntheticLineKeysDistinct | server/repository.py:376-377 | two lines without a truthy id at different indices never get the same id |
| Store.InsertLines | server/repository.py:375-381 | the line inserts touch only the lines table, and a failure is an integrity error on one of the import's ids that is already present |
| Store.Keyed | server/repository.py:384-387 | the units that get inserted are exactly the ones with a truthy `id` or `unit_id` |
| Store.UnitKey | server/repository.py:385-387 | a unit has an id exactly when its `id` or `unit_id` is truthy; the id is that non-empty value, `id` first |
| Store.InsertUnits | server/repository.py:383-392 | the unit inserts touch only the units table; a failure is either a missing field of some kept unit or an integrity error on one of the import's unit ids |
| Store.InsertUnitsAccepts | server/repository.py:383-392 | the unit inserts succeed exactly when every kept unit has its fields and the ids are pairwise distinct and unused |
| Store.InsertUnitsRows | server/repository.py:383-392 | completed unit inserts keep every existing row, store kept unit i under id i, and add no other id |
| Store.ImportedHexes | server/repository.py:366-373 | an import without null colours writes a row for exactly the cells whose given colour (default when absent) is not `lightgray`, each with that colour |
| Store.ImportedColor | server/repository.py:368 | an absent `fillColor` stands for `lightgray` and a given one for itself |
| Store.ReplaceBodySpec | server/repository.py:358-392 | the import's body runs to its end exactly when no cell's colour is null, no line or unit id clashes with another room's rows or with itself, and no kept unit lacks a field |
| Store.ReplaceRoomState | server/repository.py:354-392 | the import commits exactly when its body completes, leaves the database unchanged otherwise, and never touches room rows |
| Store.ReplaceRoomStateAccepts | server/repository.py:354-392 | the import is rejected, leaving the database as it was, exactly when a cell's colour is null, an id clashes or a unit lacks a field |
| Store.RepaintedColors | server/repository.py:361-373 | after clearing and re-inserting, each of the room's cells reads as its imported colour, and every cell not imported reads as the default |
| Store.RepaintedElsewhere | server/repository.py:361-373 | clearing and re-inserting one room's cells leaves every other room's cell colours unchanged |
| Store.RepaintedSparse | server/repository.py:366-373 | the repainted table still holds no default-coloured row |
| Store.ReplaceRoomStateHexes | server/repository.py:354-373 | an accepted import had no null colour, and it leaves the room with exactly the imported colours, other rooms' colours unchanged, and the table sparse |
| Store.ReplaceRoomStateLines | server/repository.py:375-381 | after an accepted import the room's lines are exactly the imported ones under their keys, each with its payload, and other rooms' lines are unchanged |
| Store.ReplaceRoomStateUnits | server/repository.py:383-392 | after an accepted import the room's units are exactly the kept imported ones under their ids, each built from its input, and other rooms' units are unchanged |
| Store.GetRoomState | server/repository.py:151-205 | an unknown room raises; otherwise the view has the room's name, owner, password flag and hash, created and last-activity times and version, a colour entry for exactly the room's stored cells, exactly its lines (with their payloads), and exactly its units by id, each reported with its stored columns and `moved` only when `moved_by` is set |
| Store.ViewUnit | server/repository.py:181-192 | a reported unit carries its stored name, colour, cell, creator and creation time, and `moved` exactly when `moved_by` is truthy, with that mover and time |
| Store.RoomHexes | server/repository.py:163-166 | the reported cells are exactly the room's stored cells, with their stored colours |
| Store.RoomLines | server/repository.py:169-172 | the reported lines are exactly the room's stored lines, with their payloads |
| Store.RoomUnits | server/repository.py:175-193 | the reported units are exactly the room's stored units, each as `ViewUnit` reports it |
| Store.SparseRoundTrip | server/repository.py:258-274 | after painting, reading the room shows that colour, or no entry when the colour was the default |
| Store.AddLineShown | server/repository.py:283-291 | a line just added reads back with the room under its id with its payload, next to the room's earlier lines, which are unchanged |
| Store.DeleteLinesByHexShown | server/repository.py:293-308 | after deleting a cell's lines the room reads back with exactly its earlier lines that have no endpoint on the cell, unchanged |
| Store.MoveUnitShown | server/repository.py:332-340 | a moved unit reads back on its new cell with its name, marked moved by the mover at that time exactly when the mover is truthy; the room keeps the same unit ids and the other units read back as before |
| Store.DeleteUnitsByHexShown | server/repository.py:348-352 | after deleting a cell's units the room reads back with exactly its earlier units on other cells, unchanged, and none on the cell |
| Store.DeleteRoomLeavesOrphans | server/repository.py:228-232 | as written, a room re-created under a deleted id shows the old room's painted cells |
| Store.DeleteRoomOrphanExample | server/repository.py:228-232 | concrete case: room R painted red at A, deleted and re-created, still shows red at A |
| Store.DeleteRoomCascadeStartsEmpty | server/repository.py:228-229 | with the cascade, a re-created room reads back with no cells, lines or units |
| Listing.Insert | server/main.py:537 | inserting a summary lengthens the list by one and puts either it or the old head first |
| Listing.InsertContents | server/main.py:537 | the inserted list is a permutation of the old list plus the new summary |
| Listing.InsertMembers | server/main.py:537 | after inserting, the list's members are the new summary and the old members |
| Listing.InsertSorted | server/main.py:537 | inserting into a most-recent-first list keeps it most-recent-first |
| Listing.DescendingPairwise | server/main.py:537 | in a most-recent-first list every summary is at least as recent as every later one |
| Server.Enter | server/main.py:370 | entering adds the sid to that room's channel and changes no other channel |
| Server.Leave | server/main.py:559 | leaving removes the sid from that room's channel and changes no other channel |
| Server.LeaveAll | server/main.py:246-272 | on disconnect the sid drops out of every channel and nothing else changes |
| Server.NewRoom | server/main.py:224-234 | a new room has no cells, lines or users, and was created and last active at the current time |
| Server.ActiveRoom | server/main.py:413-419 | an edit applies only when the session exists, its room id is truthy, and that room exists |
| Server.SessionRoom | server/main.py:545 | a session names a room exactly when it exists and its room id is truthy |
| Server.RoomName | server/main.py:300-313 | the name used is never empty: "Unnamed Room" when absent or blank, otherwise the stripped name |
| Server.ActualName | server/main.py:300-309 | the name used is the authenticated username when there is one, else the sent `user_name`, else "Anonymous" |
| Server.HexUpdate | server/main.py:410-437 | with no active room nothing happens; otherwise the cell takes exactly the sent colour (the default too), other cells, rooms and sessions are unchanged, and `hex_updated` goes to the room's channel minus the sender |
| Server.LineAdd | server/main.py:439-462 | with no active room nothing happens; otherwise the line is appended after the existing ones and `line_added` goes to the others in the channel |
| Server.ResetCell | server/main.py:478-479 | an existing cell goes back to the default, an absent cell stays absent, and other cells keep their colours |
| Server.HexErase | server/main.py:464-495 | the cell is reset; when every line can be read, the lines touching the cell are dropped and `hex_erased` carries the rest to the others; otherwise only the reset happens and nothing is sent |
| Server.FilterLines | server/main.py:482-485 | the kept lines are no more than the given ones, and each is one of them with no endpoint on the cell |
| Server.RoomIdOf | server/main.py:220-222 | a room id is at most six characters, from a uuid's first six |
| Server.FreshIndex | server/main.py:315-317 | the retry loop settles on the first draw whose id is not taken |
| Server.NewRoomId | server/main.py:315-317 | a created room's id is not a room already |
| Server.CreateRoom | server/main.py:297-348 | a room under a fresh id joins the registry with the stripped name and the authenticated creator as owner, and the creator enters its channel; with a session the creator becomes its only user and alone gets `room_created`; without one no user is added and nothing is sent |
| Server.JoinRoom | server/main.py:350-408 | an unknown upper-cased code answers `room_error` "Room not found" to the sender alone and changes nothing; otherwise the sender enters the channel and becomes a user, gets `room_joined` with the room's state and ownership flag, and the rest of the channel gets `user_joined` with the new count |
| Server.IsOwner | server/main.py:387-388 | a joiner is the owner exactly when authenticated under the room's owner and that owner is truthy: an unauthenticated joiner, or a room without a truthy owner, never gives `is_owner` |
| Server.LeaveRoom | server/main.py:541-577 | a listed sender is removed from the room's users and channel and the channel gets `user_left`; any session with a room has its room cleared; the sender always gets `room_left`; rooms are never removed |
| Server.DeleteRoom | server/main.py:579-615 | refused, with the source's three messages, when the sender is in no room, the room is gone, or others are present; otherwise the room is removed, the sender's room cleared and channel left, and `room_deleted` names the room |
| Server.Disconnect | server/main.py:246-272 | a listed sender is removed from its room and the whole channel, the sender included, gets `user_left`; the session is forgotten and every channel dropped |
| Server.Summary | server/main.py:526-534 | a room counts as active exactly when it has users |
| Server.InsertSummary | server/main.py:521-537 | one round of the listing loop keeps the list sorted and summarising exactly the rooms handled so far |
| Server.SortedSummaries | server/main.py:518-537 | the listing has one summary per room, each equal to its room's summary, and every summary is at least as recently active as every later one |
| Server.GetRooms | server/main.py:515-539 | the asker alone gets the list of every room's summary, each at least as recently active as every later one, and the registry is unchanged |
| ServerProps.FilterLinesDefined | server/main.py:482-485 | the erase filter raises exactly when some line lacks a `start` key, or lacks an `end` key while its start is elsewhere |
| ServerProps.FilterLinesKeeps | server/main.py:482-485 | the filter keeps every line without an endpoint on the cell, as many times as it occurred, and drops the others; it keeps the original order: at every split point the front's kept lines precede the back's |
| ServerProps.FilterLinesCounts | server/main.py:482-485 | the filter keeps each line without an endpoint on the cell exactly as many times as it occurs, and no line that has one |
| ServerProps.FilterLinesAppend | server/main.py:482-485 | filtering a concatenation succeeds exactly when filtering both parts does, and gives the front's kept lines followed by the back's |
| ServerProps.FilterLinesSplit | server/main.py:482-485 | splitting the lines at any point, both halves can be filtered, and the whole's kept lines are the front's followed by the back's |
| ServerProps.FilterLinesCountOf | server/main.py:482-485 | for one line: the filter keeps none of its copies if it has an endpoint on the cell, otherwise all of them |
| ServerProps.FilterLinesIdempotent | server/main.py:482-485 | filtering the kept lines again keeps them all |
| ServerProps.HexEraseIdempotent | server/main.py:464-495 | erasing the same cell twice at the same time leaves the registry as erasing it once (a later second erase would move `last_activity` again) |
| ServerProps.ConsistentActive | server/main.py:413-419 | while every session's room exists and lists it, a session's room is the room its edits apply to |
| ServerProps.CreateRoomConsistent | server/main.py:297-348 | creating a room preserves: every session naming a room names an existing room that lists it |
| ServerProps.JoinRoomConsistent | server/main.py:350-408 | joining preserves the session/room invariant |
| ServerProps.LeaveRoomConsistent | server/main.py:541-577 | leaving preserves the session/room invariant |
| ServerProps.DeleteRoomConsistent | server/main.py:596-608 | deleting preserves the invariant: a room with at most one user, the deleter, is named by no other session |
| ServerProps.DisconnectConsistent | server/main.py:246-272 | disconnecting preserves the session/room invariant |
| ServerProps.HexUpdateConsistent | server/main.py:410-437 | painting preserves the session/room invariant |
| ServerProps.LineAddConsistent | server/main.py:439-462 | adding a line preserves the session/room invariant |
| ServerProps.HexEraseConsistent | server/main.py:464-495 | erasing preserves the session/room invariant |
| ServerProps.JoinIgnoresCase | server/main.py:354 | joining with a code and with its upper-case form are the same step |
| ServerProps.CreatedRoomJoinable | server/main.py:220-408 | a just-created room is found by its id: a joiner gets `room_joined` for it and is listed in it |
| ServerProps.JoinLeavesStaleMember | server/main.py:369-382 | joining another room does not leave the current one: the old room still lists the session, which now names the new room |
| ServerProps.LeaveUndoesJoin | server/main.py:350-577 | leaving right after joining restores the room's users and every other room, and the session names no room |
| ServerProps.LeaveUndoesJoinChannels | server/main.py:370-559 | leaving right after joining restores every channel |
| ServerProps.EditsSkipSender | server/main.py:433-495 | no paint, line or erase relay reaches its own sender |
| ServerProps.JoinerReceivesEdits | server/main.py:404-437 | once a session has joined the editor's room, it receives the editor's `hex_updated` |
| Agreement.StepAgrees | server/main.py:424-427 | one paint or erase, applied in memory and to the table, keeps every cell's effective colour equal |
| Agreement.EffectiveColorsAgree | server/repository.py:258-280 | after the same paints and erases, the registry and the sparse table give every cell the same colour, absent meaning `lightgray` |
| Agreement.NewRoomAgrees | server/main.py:224-234 | a new room agrees with a table holding no rows for its id |
| Agreement.OrphanedRoomDisagrees | server/repository.py:228-232 | as written, a room re-created under a deleted id no longer agrees with the server's fresh room |
| Agreement.RecreatedRoomAgrees | server/db.py:91 | with the cascade, a re-created room agrees with the server's fresh room |
| Agreement.EraseLinesAgree | server/main.py:482-485 | when the server's lines and the stored payloads of a room agree as sets, erasing a cell drops the same lines on both sides, so they still agree |
| Agreement.LineAddAgrees | server/main.py:450-453 | when the server's lines and the stored payloads agree, adding the same line on both sides (the store accepting its id) keeps them in agreement |

## Left out

- Authentication, password hashing, tokens and the HTTP endpoints: these are outside the handlers' state effects. The authenticated username appears only as the session's `identity`.
- `cursor_update` and `message`: both are pure relays that change no state.
- Persistence of the registry to JSON files, the periodic save task, and JSON-to-SQLite migration: these are I/O.
- Indexes created by `init_database`, and the `users`/`tokens` tables beyond their column lists: neither affects the modelled operations.
- `hours_since_activity` in `get_rooms`: it is floating-point arithmetic on the clock. Timestamps are naturals passed in as `now`.
- Server.GetRooms: the summaries are built from the rooms in an unspecified order, so the order among rooms with equal last activity is not fixed. Python builds them in insertion order and keeps ties in that order.
- Server.CreateRoom: requires that some uuid draw gives an unused id. The source loops until one does, which a finite sequence of draws cannot express otherwise.
- Server.RoomIdOf: the uuid's text format is not modelled; a draw is any string.
- Text.Upper: upper-cases ASCII letters only. Python's `str.upper()` also maps non-ASCII letters, some to several characters.
- Payload fields sent as JSON `null` are mostly treated as absent, which differs from Python in these cases:
  - A null `fillColor` in an import is modelled: `hex_info.get('fillColor', 'lightgray')` yields None, the NOT NULL constraint rejects it, and the import rolls back.
  - A null `room_id` in `join_room`: Python raises AttributeError on `None.upper()` and sends nothing. The model answers `room_error`.
  - A null `room_name` in `create_room`: Python raises AttributeError on `None.strip()` and creates nothing. The model uses "Unnamed Room".
  - Server.ActualName: a null `user_name` is kept as None in Python and relayed as null. The model uses "Anonymous".
  - A null unit `name`, `color` or `hex_key` in an import raises IntegrityError rather than KeyError. Both roll the import back; the model reports a missing field.
- Server.FilterLines: a line endpoint is either a cell key or absent. An endpoint object whose `key` is JSON null is modelled as absent, so the model raises KeyError. Python evaluates `None != hex_key` at main.py:484 and goes on to read `end`.
- Store.DeleteLinesByHex: a stored payload whose `start` or `end` is JSON null makes `None.get('key')` raise AttributeError at repository.py:301-302, and the transaction rolls back. The model has no null endpoint, so it treats such a line as having no endpoint there and deletes normally.
- Store.AddUnit: a `name`, `color` or `hex_key` given as JSON null raises IntegrityError on the NOT NULL column, not KeyError. The write is rolled back either way; the model reports a missing field.
- Server.IsOwner: the `is_owner` flag of `room_joined` is modelled as a bool. Python's `and` at main.py:388 yields the falsy owner itself when the room has none, so a room without an owner (every room created without authentication, main.py:308-310) sends `is_owner: null` where the model sends false.
- Handlers are modelled as running one at a time, each to completion. In the source, each handler awaits `sio.enter_room`, `sio.leave_room` or `sio.emit` between its reads and writes (main.py:370→384, 559/562→567, 261→267). Another handler can run during such an await. For example, `leave_room` suspends at main.py:559 after removing its sender; the last user then runs `delete_room`; main.py:567 then reads `rooms[room_id]` and raises KeyError, and the sender never gets `room_left`.
- `hex_key`, `fill_color` and `line` in edit payloads are always present values. A missing key in Python is `None`, which is stored and relayed like any value.
- A cell of `hex_data` is its colour only, without the other fields the client may put in the cell object.
- The `users` list in `room_created`/`room_joined` is the users map. Its order (insertion order in Python) is not modelled.
- Line and unit order in `get_room_state` (`ORDER BY created_at`): lines and units are maps keyed by id.
- The four optional unit columns (icon, tint, description, parent): the repository never writes them, so unit rows carry only the columns it writes.
- Failures of SQLite itself (disk, locks): the only errors modelled are key violations, missing fields and unknown rooms.
- Socket.IO's delivery of events to a closing socket.

## Findings

| source | as written | input that shows it | evidently intended | confidence | as-written member | corrected member |
|---|---|---|---|---|---|---|
| server/repository.py:228-232 | `get_db_connection` (server/db.py:18-23) never runs `PRAGMA foreign_keys = ON`, so SQLite ignores the `ON DELETE CASCADE` clauses (server/db.py:91, 103, 119) and `delete_room` removes only the room row | room R with cell A painted red; delete R, then create a room with id R again: the new room reads back with A red | deleting a room removes its hexes, lines and units, as its docstring and the schema declare | medium (not executed) | Store.DeleteRoom | Store.DeleteRoomCascade |

=== FILE: agreement.dfy ===
/**
 * The two representations of a room's cells side by side: the socket
 * server's in-memory `hex_data`, which keeps every painted cell (the default
 * colour included) and resets an erased one in place, and the store's
 * sparse `hexes` table, which keeps no row for the default colour and
 * deletes erased cells. Read through "absent means lightgray" they agree
 * after any sequence of paints and erases.
 */
module Agreement {
  import opened Wrappers
  import opened Entities
  import Server
  import Store
  import ServerProps

  /** One cell edit, as sent by `hex_update` or `hex_erase`. */
  datatype HexOp = Paint(key: HexKey, color: Color) | Erase(key: HexKey)

  /** The colour a client draws for an in-memory cell. */
  function ShownColor(room: Server.Room, key: HexKey): Color {
    if key in room.hexData then room.hexData[key] else Default
  }

  /** The room's cells, as the server shows them, agree with the store's rows for that room. */
  ghost predicate Agree(room: Server.Room, db: Store.Db, roomId: RoomId) {
    forall key :: ShownColor(room, key) == Store.StoredColor(db, roomId, key)
  }

  /** One edit, applied by the socket handler for `sid`. */
  function ServerOp(s: Server.State, sid: Server.Sid, op: HexOp, now: Server.Time): Server.State {
    match op
    case Paint(key, color) => Server.HexUpdate(s, sid, key, color, now).state
    case Erase(key) => Server.HexErase(s, sid, key, now).state
  }

  /** One edit, applied to the store. */
  function StoreOp(db: Store.Db, roomId: RoomId, op: HexOp, actor: Option<string>, now: Store.Time): Store.Db {
    match op
    case Paint(key, color) => Store.UpdateHex(db, roomId, key, color, actor, now)
    case Erase(key) => Store.EraseHex(db, roomId, key)
  }

  /** A sequence of edits from one session, in order. */
  function ServerRun(s: Server.State, sid: Server.Sid, ops: seq<HexOp>, now: Server.Time): Server.State
    decreases |ops|
  {
    if ops == [] then s else ServerRun(ServerOp(s, sid, ops[0], now), sid, ops[1..], now)
  }

  /** The same edits, in order, against the store. */
  function StoreRun(db: Store.Db, roomId: RoomId, ops: seq<HexOp>, actor: Option<string>, now: Store.Time): Store.Db
    decreases |ops|
  {
    if ops == [] then db else StoreRun(StoreOp(db, roomId, ops[0], actor, now), roomId, ops[1..], actor, now)
  }

  /** One edit keeps the session's room active and the two representations in agreement. */
  lemma StepAgrees(s: Server.State, sid: Server.Sid, db: Store.Db, roomId: RoomId, op: HexOp,
                   actor: Option<string>, now: nat)
    requires Server.ActiveRoom(s, sid) == Some(roomId)
    requires Agree(s.rooms[roomId], db, roomId)
    ensures var s' := ServerOp(s, sid, op, now);
            Server.ActiveRoom(s', sid) == Some(roomId) && Agree(s'.rooms[roomId], StoreOp(db, roomId, op, actor, now), roomId)
  {
    var s' := ServerOp(s, sid, op, now);
    var db' := StoreOp(db, roomId, op, actor, now);
    assert Server.ActiveRoom(s', sid) == Some(roomId);
    forall key ensures ShownColor(s'.rooms[roomId], key) == Store.StoredColor(db', roomId, key) {
      assert Store.StoredColor(db, roomId, key) == ShownColor(s.rooms[roomId], key);
      if key != op.key {
        OtherCellKept(db, db', roomId, op.key, key);
      }
    }
  }

  /** A store edit of one cell leaves every other cell's colour alone. */
  lemma OtherCellKept(db: Store.Db, db': Store.Db, roomId: RoomId, edited: HexKey, key: HexKey)
    requires db'.hexes - {(roomId, edited)} == db.hexes - {(roomId, edited)} && key != edited
    ensures Store.StoredColor(db', roomId, key) == Store.StoredColor(db, roomId, key)
  {
    assert (roomId, key) in db'.hexes <==> (roomId, key) in (db.hexes - {(roomId, edited)});
    if (roomId, key) in db.hexes {
      assert db'.hexes[(roomId, key)] == (db'.hexes - {(roomId, edited)})[(roomId, key)];
    }
  }

  /**
   * After the same paints and erases from a session in the room, the
   * server's cells and the store's rows give every cell the same colour.
   */
  lemma {:induction false} EffectiveColorsAgree(s: Server.State, sid: Server.Sid, db: Store.Db, roomId: RoomId,
                                                ops: seq<HexOp>, actor: Option<string>, now: nat)
    requires Server.ActiveRoom(s, sid) == Some(roomId)
    requires Agree(s.rooms[roomId], db, roomId)
    ensures var s' := ServerRun(s, sid, ops, now);
            Server.ActiveRoom(s', sid) == Some(roomId) && Agree(s'.rooms[roomId], StoreRun(db, roomId, ops, actor, now), roomId)
    decreases |ops|
  {
    if ops != [] {
      StepAgrees(s, sid, db, roomId, ops[0], actor, now);
      EffectiveColorsAgree(ServerOp(s, sid, ops[0], now), sid, StoreOp(db, roomId, ops[0], actor, now), roomId,
                           ops[1..], actor, now);
    }
  }

  /** A new room agrees with a store holding no cell rows for its id. */
  lemma NewRoomAgrees(name: string, owner: Option<string>, now: nat, db: Store.Db, roomId: RoomId)
    requires forall key :: (roomId, key) !in db.hexes
    ensures Agree(Server.NewRoom(name, owner, now), db, roomId)
  {
  }

  /**
   * As written, a room re-created under a deleted room's id inherits the old
   * room's painted rows, so the store no longer matches the server's fresh,
   * empty room.
   */
  lemma OrphanedRoomDisagrees(db: Store.Db, roomId: RoomId, key: HexKey, name: string, owner: Option<string>,
                              passwordHash: Option<string>, now: nat)
    requires (roomId, key) in db.hexes && Store.Sparse(db)
    ensures !Agree(Server.NewRoom(name, owner, now),
                   Store.CreateRoom(Store.DeleteRoom(db, roomId), roomId, name, owner, passwordHash, now).state, roomId)
  {
    Store.DeleteRoomLeavesOrphans(db, roomId, key, name, owner, passwordHash, now);
    assert ShownColor(Server.NewRoom(name, owner, now), key) == Default;
  }

  /** With the cascade, the re-created room agrees with the server's fresh room. */
  lemma RecreatedRoomAgrees(db: Store.Db, roomId: RoomId, name: string, owner: Option<string>,
                            passwordHash: Option<string>, now: nat)
    ensures Agree(Server.NewRoom(name, owner, now),
                  Store.CreateRoom(Store.DeleteRoomCascade(db, roomId), roomId, name, owner, passwordHash, now).state, roomId)
  {
    Store.DeleteRoomCascadeStartsEmpty(db, roomId, name, owner, passwordHash, now);
  }

  // ---------------------------------------------------------------- lines

  /** The line payloads the store keeps for a room. */
  function StoredLines(db: Store.Db, roomId: RoomId): set<Line> {
    set id | id in db.lines && db.lines[id].roomId == roomId :: db.lines[id].payload
  }

  /** The room's lines, as the server holds them, are the payloads the store keeps for it. */
  predicate LinesAgree(room: Server.Room, db: Store.Db, roomId: RoomId) {
    (set l | l in room.lines) == StoredLines(db, roomId)
  }

  /**
   * Erasing a cell drops the same lines on both sides: the lines `hex_erase`
   * filters out of the room are exactly the rows `delete_lines_by_hex`
   * deletes, whenever the filter can read every line.
   */
  lemma EraseLinesAgree(s: Server.State, sid: Server.Sid, db: Store.Db, roomId: RoomId, key: HexKey, now: nat)
    requires Server.ActiveRoom(s, sid) == Some(roomId)
    requires LinesAgree(s.rooms[roomId], db, roomId)
    requires Server.FilterLines(s.rooms[roomId].lines, key).Some?
    ensures LinesAgree(Server.HexErase(s, sid, key, now).state.rooms[roomId], Store.DeleteLinesByHex(db, roomId, key), roomId)
  {
    var lines := s.rooms[roomId].lines;
    var kept := Server.FilterLines(lines, key).value;
    assert Server.HexErase(s, sid, key, now).state.rooms[roomId].lines == kept;
    KeptLines(lines, key);
    StoredLinesAfterDelete(db, Store.DeleteLinesByHex(db, roomId, key), roomId, key);
    assert (set l | l in lines && !EndsAt(l, key)) == (set l | l in StoredLines(db, roomId) && !EndsAt(l, key));
  }

  /** The distinct lines the filter of `hex_erase` keeps: those without an endpoint on the cell. */
  lemma KeptLines(lines: seq<Line>, key: HexKey)
    requires Server.FilterLines(lines, key).Some?
    ensures (set l | l in Server.FilterLines(lines, key).value) == (set l | l in lines && !EndsAt(l, key))
  {
    var kept := Server.FilterLines(lines, key).value;
    ServerProps.FilterLinesCounts(lines, key);
    forall l ensures l in kept <==> l in lines && !EndsAt(l, key) {
      assert l in kept <==> multiset(kept)[l] > 0;
      assert l in lines <==> multiset(lines)[l] > 0;
    }
  }

  /** The payloads left after `delete_lines_by_hex` are the room's earlier ones without an endpoint on the cell. */
  lemma StoredLinesAfterDelete(db: Store.Db, after: Store.Db, roomId: RoomId, key: HexKey)
    requires forall id :: id in after.lines <==> id in db.lines && !Store.LineOnCell(db.lines[id], roomId, key)
    requires forall id | id in after.lines :: after.lines[id] == db.lines[id]
    ensures StoredLines(after, roomId) == (set l | l in StoredLines(db, roomId) && !EndsAt(l, key))
  {
    forall l | l in StoredLines(db, roomId) && !EndsAt(l, key)
      ensures l in StoredLines(after, roomId)
    {
      var id :| id in db.lines && db.lines[id].roomId == roomId && db.lines[id].payload == l;
      assert id in after.lines;
    }
  }

  /** Adding a line adds the same payload on both sides, when the store accepts its id. */
  lemma LineAddAgrees(s: Server.State, sid: Server.Sid, db: Store.Db, roomId: RoomId, lineId: Store.LineId,
                      line: Line, actor: Option<string>, now: nat)
    requires Server.ActiveRoom(s, sid) == Some(roomId)
    requires LinesAgree(s.rooms[roomId], db, roomId)
    requires Store.AddLine(db, roomId, lineId, line, actor, now).error.None?
    ensures LinesAgree(Server.LineAdd(s, sid, line, now).state.rooms[roomId],
                       Store.AddLine(db, roomId, lineId, line, actor, now).state, roomId)
  {
    var lines := s.rooms[roomId].lines;
    var after := Server.LineAdd(s, sid, line, now).state.rooms[roomId].lines;
    var db' := Store.AddLine(db, roomId, lineId, line, actor, now).state;
    assert after == lines + [line];
    forall l ensures l in StoredLines(db', roomId) <==> l in StoredLines(db, roomId) || l == line {
      if l in StoredLines(db, roomId) {
        var id :| id in db.lines && db.lines[id].roomId == roomId && db.lines[id].payload == l;
        assert id in db'.lines && db'.lines[id] == db.lines[id];
      }
      if l == line {
        assert lineId in db'.lines;
      }
    }
    assert (set l | l in after) == (set l | l in lines) + {line};
  }
}

=== FILE: entities.dfy ===
/** The map entities shared by the in-memory server and the persistent store. */
module Entities {
  import opened Wrappers

  type RoomId = string
  type HexKey = string
  type Color = string

  /** The colour of a cell nobody has painted; the store never keeps a row with it. */
  const Default: Color := "lightgray"

  /**
   * A line as the client sends it: an opaque JSON object whose `start` and
   * `end` endpoints each carry a cell `key`. `start`/`end` are None when the
   * endpoint or its `key` is missing; `id` is the optional `id` field and
   * `attrs` stands for every other field of the payload.
   */
  datatype Line = Line(id: Option<string>, start: Option<HexKey>, end: Option<HexKey>, attrs: string)

  /** The line has an endpoint on cell `k`. */
  predicate EndsAt(l: Line, k: HexKey) {
    l.start == Some(k) || l.end == Some(k)
  }
}

=== FILE: listing.dfy ===
/**
 * The room directory `get_rooms` sends: one summary per room, most recently
 * active first. Python's `list.sort(key=..., reverse=True)` is stable, so a
 * summary inserted later goes after every earlier one with the same activity.
 */
module Listing {

  datatype RoomSummary = RoomSummary(roomId: string, name: string, usersCount: nat, createdAt: nat,
                                     lastActivity: nat, isActive: bool)

  /** Most recent activity first: no summary is more recent than the one before it. */
  predicate Descending(s: seq<RoomSummary>) {
    forall i | 0 < i < |s| :: s[i - 1].lastActivity >= s[i].lastActivity
  }

  /** Place `x` after every summary at least as recent, before the first older one. */
  function Insert(x: RoomSummary, s: seq<RoomSummary>): (r: seq<RoomSummary>)
    ensures |r| == |s| + 1
    ensures r[0] == x || (s != [] && r[0] == s[0])
  {
    if s == [] then [x]
    else if s[0].lastActivity >= x.lastActivity then [s[0]] + Insert(x, s[1..])
    else [x] + s
  }

  /** Inserting adds exactly `x` to the contents. */
  lemma {:induction false} InsertContents(x: RoomSummary, s: seq<RoomSummary>)
    ensures multiset(Insert(x, s)) == multiset(s) + multiset{x}
  {
    if s != [] && s[0].lastActivity >= x.lastActivity {
      InsertContents(x, s[1..]);
      assert s == [s[0]] + s[1..];
    }
  }

  /** The summaries after inserting are `x` and the ones before. */
  lemma InsertMembers(x: RoomSummary, s: seq<RoomSummary>)
    ensures forall e :: e in Insert(x, s) <==> e == x || e in s
  {
    InsertContents(x, s);
    assert forall e :: e in Insert(x, s) <==> e in multiset(Insert(x, s));
    assert forall e :: e in s <==> e in multiset(s);
  }

  /** Inserting into a sorted list keeps it sorted. */
  lemma {:induction false} InsertSorted(x: RoomSummary, s: seq<RoomSummary>)
    requires Descending(s)
    ensures Descending(Insert(x, s))
  {
    if s != [] && s[0].lastActivity >= x.lastActivity {
      InsertSorted(x, s[1..]);
      var tail := Insert(x, s[1..]);
      assert Insert(x, s) == [s[0]] + tail;
      assert s[0].lastActivity >= tail[0].lastActivity;
    }
  }

  /** Neighbour order gives the full order: every summary is at least as recent as every later one. */
  lemma DescendingPairwise(s: seq<RoomSummary>)
    requires Descending(s)
    ensures forall i, j | 0 <= i < j < |s| :: s[i].lastActivity >= s[j].lastActivity
  {
    forall i, j | 0 <= i < j < |s| ensures s[i].lastActivity >= s[j].lastActivity {
      var k := j;
      while k > i
        invariant i <= k <= j
        invariant s[k].lastActivity >= s[j].lastActivity
      {
        k := k - 1;
      }
    }
  }
}

=== FILE: schema.dfy ===
/**
 * The SQLite schema the server creates (`init_database`), its two idempotent
 * column migrations, and the all-or-nothing contract of `db_transaction`.
 * SQL text and connections are abstracted: a table is its column list, its
 * primary key and whether its rows are declared to go with their room.
 */
module Schema {
  import opened Wrappers

  datatype SqlType = Text | Integer | Real

  /** One column as `CREATE TABLE` or `ALTER TABLE ... ADD COLUMN` declares it. */
  datatype Column = Column(name: string, sqlType: SqlType, notNull: bool, default: Option<int>)

  /**
   * A table: its columns in declaration order, its primary key columns, and
   * whether it declares `FOREIGN KEY (room_id) ... ON DELETE CASCADE`.
   */
  datatype TableDef = TableDef(columns: seq<Column>, primaryKey: seq<string>, cascadesWithRoom: bool)

  /**
   * The tables of the database file that `init_database` knows, each absent
   * (None) until created.
   */
  datatype Catalog = Catalog(users: Option<TableDef>, tokens: Option<TableDef>, rooms: Option<TableDef>,
                             hexes: Option<TableDef>, lines: Option<TableDef>, units: Option<TableDef>)
  {
    predicate Complete() {
      users.Some? && tokens.Some? && rooms.Some? && hexes.Some? && lines.Some? && units.Some?
    }
  }

  function Nullable(name: string, t: SqlType): Column {
    Column(name, t, false, None)
  }

  function NotNull(name: string, t: SqlType): Column {
    Column(name, t, true, None)
  }

  function UsersTable(): (t: TableDef)
    ensures t.primaryKey == ["username"] && !t.cascadesWithRoom
  {
    TableDef([Nullable("username", Text), NotNull("password_hash", Text), NotNull("created_at", Real),
              Nullable("last_login", Real), Column("is_admin", Integer, true, Some(0))],
             ["username"], false)
  }

  function TokensTable(): (t: TableDef)
    ensures t.primaryKey == ["token"] && !t.cascadesWithRoom
  {
    TableDef([Nullable("token", Text), NotNull("username", Text), NotNull("created_at", Real),
              Nullable("expires_at", Real)],
             ["token"], false)
  }

  /** Rooms are keyed by their id alone; deleting a room takes no other table's rows with it by itself. */
  function RoomsTable(): (t: TableDef)
    ensures t.primaryKey == ["room_id"] && !t.cascadesWithRoom
    ensures NotNull("name", Text) in t.columns && Column("version", Integer, true, Some(1)) in t.columns
  {
    TableDef([Nullable("room_id", Text), NotNull("name", Text), Nullable("owner_username", Text),
              Column("has_password", Integer, true, Some(0)), Nullable("password_hash", Text),
              NotNull("created_at", Real), NotNull("last_activity", Real),
              Column("version", Integer, true, Some(1))],
             ["room_id"], false)
  }

  /**
   * Sparse: a row exists only for a cell whose colour is not the default.
   * Keyed by the pair (room, cell), so one row per cell per room; a NULL
   * colour violates the NOT NULL constraint.
   */
  function HexesTable(): (t: TableDef)
    ensures t.primaryKey == ["room_id", "hex_key"] && t.cascadesWithRoom
    ensures NotNull("fill_color", Text) in t.columns
  {
    TableDef([NotNull("room_id", Text), NotNull("hex_key", Text), NotNull("fill_color", Text),
              NotNull("updated_at", Real), Nullable("updated_by", Text)],
             ["room_id", "hex_key"], true)
  }

  /** Keyed by `line_id` alone, so a line id is unique across all rooms. */
  function LinesTable(): (t: TableDef)
    ensures t.primaryKey == ["line_id"] && t.cascadesWithRoom
    ensures NotNull("room_id", Text) in t.columns && NotNull("payload_json", Text) in t.columns
  {
    TableDef([NotNull("room_id", Text), Nullable("line_id", Text), NotNull("payload_json", Text),
              NotNull("created_at", Real), Nullable("created_by", Text)],
             ["line_id"], true)
  }

  /** Keyed by `unit_id` alone, so a unit id is unique across all rooms; name, colour and cell are required. */
  function UnitsTable(): (t: TableDef)
    ensures t.primaryKey == ["unit_id"] && t.cascadesWithRoom
    ensures NotNull("name", Text) in t.columns && NotNull("color", Text) in t.columns
            && NotNull("hex_key", Text) in t.columns
  {
    TableDef([NotNull("room_id", Text), Nullable("unit_id", Text), NotNull("name", Text),
              NotNull("color", Text), NotNull("hex_key", Text), NotNull("created_at", Real),
              Nullable("created_by", Text), Nullable("moved_at", Real), Nullable("moved_by", Text)],
             ["unit_id"], true)
  }

  /** The optional unit columns later versions added, in the order they are checked. */
  function UnitsExtraColumns(): seq<Column> {
    [Nullable("icon_path", Text), Nullable("tint_color", Text),
     Nullable("description", Text), Nullable("parent_unit_id", Text)]
  }

  function ColumnNames(cols: seq<Column>): set<string> {
    set c | c in cols :: c.name
  }

  /** The columns of `required` whose names are not in `existing`, in their order. */
  function MissingColumns(required: seq<Column>, existing: set<string>): (r: seq<Column>)
    ensures forall c :: c in r <==> c in required && c.name !in existing
    ensures |r| <= |required|
  {
    if required == [] then []
    else (if required[0].name in existing then [] else [required[0]])
         + MissingColumns(required[1..], existing)
  }

  /**
   * The loop of `ensure_units_columns`: read the existing column names once,
   * then append every required column that is not among them.
   */
  function AddMissingColumns(t: TableDef, required: seq<Column>): (r: TableDef)
    ensures r.primaryKey == t.primaryKey && r.cascadesWithRoom == t.cascadesWithRoom
    ensures |t.columns| <= |r.columns| && r.columns[..|t.columns|] == t.columns
    ensures forall c :: c in r.columns[|t.columns|..] <==> c in required && c.name !in ColumnNames(t.columns)
    ensures ColumnNames(r.columns) == ColumnNames(t.columns) + ColumnNames(required)
  {
    var added := MissingColumns(required, ColumnNames(t.columns));
    var r := t.(columns := t.columns + added);
    assert r.columns[|t.columns|..] == added;
    forall n | n in ColumnNames(required)
      ensures n in ColumnNames(r.columns)
    {
      var c :| c in required && c.name == n;
      if n !in ColumnNames(t.columns) {
        assert c in added;
      }
    }
    r
  }

  lemma {:induction false} NothingMissing(required: seq<Column>, existing: set<string>)
    requires ColumnNames(required) <= existing
    ensures MissingColumns(required, existing) == []
  {
    if required != [] {
      assert required[0] in required;
      assert ColumnNames(required[1..]) <= ColumnNames(required);
      NothingMissing(required[1..], existing);
    }
  }

  /** Once every required column is present, the migration adds nothing. */
  lemma AddMissingColumnsIdempotent(t: TableDef, required: seq<Column>)
    ensures AddMissingColumns(AddMissingColumns(t, required), required) == AddMissingColumns(t, required)
  {
    var once := AddMissingColumns(t, required);
    NothingMissing(required, ColumnNames(once.columns));
    assert once.columns + [] == once.columns;
  }

  /**
   * `ensure_units_columns`: add whichever of the four optional unit columns
   * is missing, after the existing columns, which stay as they were.
   */
  function EnsureUnitsColumns(units: TableDef): (r: TableDef)
    ensures r.primaryKey == units.primaryKey && r.cascadesWithRoom == units.cascadesWithRoom
    ensures |units.columns| <= |r.columns| && r.columns[..|units.columns|] == units.columns
    ensures forall c :: c in r.columns[|units.columns|..] <==> c in UnitsExtraColumns() && c.name !in ColumnNames(units.columns)
    ensures ColumnNames(r.columns) == ColumnNames(units.columns) + ColumnNames(UnitsExtraColumns())
  {
    AddMissingColumns(units, UnitsExtraColumns())
  }

  /** `ensure_rooms_columns`: add `map_filename` unless the table already has it. */
  function EnsureRoomsColumns(rooms: TableDef): (r: TableDef)
    ensures "map_filename" in ColumnNames(r.columns)
    ensures r.primaryKey == rooms.primaryKey && r.cascadesWithRoom == rooms.cascadesWithRoom
    ensures "map_filename" in ColumnNames(rooms.columns) ==> r == rooms
    ensures "map_filename" !in ColumnNames(rooms.columns) ==>
              r.columns == rooms.columns + [Nullable("map_filename", Text)]
    ensures ColumnNames(r.columns) == ColumnNames(rooms.columns) + {"map_filename"}
  {
    if "map_filename" in ColumnNames(rooms.columns) then rooms
    else
      var r := rooms.(columns := rooms.columns + [Nullable("map_filename", Text)]);
      assert r.columns[|rooms.columns|] == Nullable("map_filename", Text);
      r
  }

  /** `CREATE TABLE IF NOT EXISTS`: an existing table is left exactly as it is. */
  function CreateIfAbsent(existing: Option<TableDef>, t: TableDef): (r: Option<TableDef>)
    ensures existing.Some? ==> r == existing
    ensures existing.None? ==> r == Some(t)
  {
    if existing.Some? then existing else Some(t)
  }

  /** Every column of `required` is missing when none of their names is present. */
  lemma {:induction false} AllMissing(required: seq<Column>, existing: set<string>)
    requires forall c | c in required :: c.name !in existing
    ensures MissingColumns(required, existing) == required
  {
    if required != [] {
      assert forall c | c in required[1..] :: c in required;
      AllMissing(required[1..], existing);
      assert required == [required[0]] + required[1..];
    }
  }

  /** A name no column carries is not among the column names. */
  lemma NameAbsent(cols: seq<Column>, n: string)
    requires forall i | 0 <= i < |cols| :: cols[i].name != n
    ensures n !in ColumnNames(cols)
  {
  }

  /** The rooms table after `CREATE TABLE IF NOT EXISTS rooms` and `ensure_rooms_columns`. */
  function InitRooms(existing: Option<TableDef>): (r: TableDef)
    ensures existing.None? ==> r == RoomsTable().(columns := RoomsTable().columns + [Nullable("map_filename", Text)])
    ensures existing.Some? ==>
              && r.primaryKey == existing.value.primaryKey && r.cascadesWithRoom == existing.value.cascadesWithRoom
              && |existing.value.columns| <= |r.columns| && r.columns[..|existing.value.columns|] == existing.value.columns
    ensures "map_filename" in ColumnNames(r.columns)
  {
    if existing.Some? then EnsureRoomsColumns(existing.value)
    else
      NameAbsent(RoomsTable().columns, "map_filename");
      EnsureRoomsColumns(RoomsTable())
  }

  /** The units table after `CREATE TABLE IF NOT EXISTS units` and `ensure_units_columns`. */
  function InitUnits(existing: Option<TableDef>): (r: TableDef)
    ensures existing.None? ==> r == UnitsTable().(columns := UnitsTable().columns + UnitsExtraColumns())
    ensures existing.Some? ==>
              && r.primaryKey == existing.value.primaryKey && r.cascadesWithRoom == existing.value.cascadesWithRoom
              && |existing.value.columns| <= |r.columns| && r.columns[..|existing.value.columns|] == existing.value.columns
    ensures ColumnNames(UnitsExtraColumns()) <= ColumnNames(r.columns)
  {
    if existing.Some? then EnsureUnitsColumns(existing.value)
    else
      FreshUnitsColumns();
      EnsureUnitsColumns(UnitsTable())
  }

  /** A fresh units table gets all four optional columns, after the declared ones. */
  lemma FreshUnitsColumns()
    ensures EnsureUnitsColumns(UnitsTable()).columns == UnitsTable().columns + UnitsExtraColumns()
  {
    var cols := UnitsTable().columns;
    forall c | c in UnitsExtraColumns()
      ensures c.name !in ColumnNames(cols)
    {
      NameAbsent(cols, c.name);
    }
    AllMissing(UnitsExtraColumns(), ColumnNames(cols));
  }

  /**
   * `init_database` on a database file whose current tables are `cat`: a
   * missing table is created as declared and an existing one is left as it
   * is (`IF NOT EXISTS`); then the two migrations append their columns.
   */
  function InitDatabase(cat: Catalog): (r: Catalog)
    ensures r.Complete()
    ensures cat.users.Some? ==> r.users == cat.users
    ensures cat.tokens.Some? ==> r.tokens == cat.tokens
    ensures cat.hexes.Some? ==> r.hexes == cat.hexes
    ensures cat.lines.Some? ==> r.lines == cat.lines
    ensures cat.users.None? ==> r.users == Some(UsersTable())
    ensures cat.tokens.None? ==> r.tokens == Some(TokensTable())
    ensures cat.hexes.None? ==> r.hexes == Some(HexesTable())
    ensures cat.lines.None? ==> r.lines == Some(LinesTable())
    ensures cat.rooms.None? ==> r.rooms == Some(RoomsTable().(columns := RoomsTable().columns + [Nullable("map_filename", Text)]))
    ensures cat.units.None? ==> r.units == Some(UnitsTable().(columns := UnitsTable().columns + UnitsExtraColumns()))
    ensures cat.rooms.Some? ==>
              var existing := cat.rooms.value;
              && r.rooms.value.primaryKey == existing.primaryKey && r.rooms.value.cascadesWithRoom == existing.cascadesWithRoom
              && |existing.columns| <= |r.rooms.value.columns| && r.rooms.value.columns[..|existing.columns|] == existing.columns
    ensures cat.units.Some? ==>
              var existing := cat.units.value;
              && r.units.value.primaryKey == existing.primaryKey && r.units.value.cascadesWithRoom == existing.cascadesWithRoom
              && |existing.columns| <= |r.units.value.columns| && r.units.value.columns[..|existing.columns|] == existing.columns
    ensures ColumnNames(UnitsExtraColumns()) <= ColumnNames(r.units.value.columns)
    ensures "map_filename" in ColumnNames(r.rooms.value.columns)
  {
    Catalog(CreateIfAbsent(cat.users, UsersTable()), CreateIfAbsent(cat.tokens, TokensTable()),
            Some(InitRooms(cat.rooms)), CreateIfAbsent(cat.hexes, HexesTable()),
            CreateIfAbsent(cat.lines, LinesTable()), Some(InitUnits(cat.units)))
  }

  /** Running `init_database` on an initialised database changes nothing. */
  lemma InitDatabaseIdempotent(cat: Catalog)
    ensures InitDatabase(InitDatabase(cat)) == InitDatabase(cat)
  {
    var once := InitDatabase(cat);
    var units := if cat.units.Some? then cat.units.value else UnitsTable();
    AddMissingColumnsIdempotent(units, UnitsExtraColumns());
  }

  /** A fresh database's `rooms.version` is NOT NULL with default 1. */
  lemma RoomsVersionDefaultsToOne()
    ensures var initial := InitDatabase(Catalog(None, None, None, None, None, None));
            Column("version", Integer, true, Some(1)) in initial.rooms.value.columns
  {
    var declared := RoomsTable().columns + [Nullable("map_filename", Text)];
    assert declared[..|RoomsTable().columns|] == RoomsTable().columns;
  }

  /** Why a write failed: a violated key or NOT NULL constraint, a missing payload field, or an unknown room. */
  datatype DbError = IntegrityError(table: string, key: string) | MissingField(field: string) | RoomNotFound(roomId: string)

  /** What the body of a `with db_transaction()` block did: ran to its end, or raised after some writes. */
  datatype Attempt<S> = Completed(state: S) | Raised(partial: S, error: DbError)
  {
    /** The state the body's writes had reached when it stopped. */
    function Written(): S {
      match this
      case Completed(s) => s
      case Raised(p, _) => p
    }
  }

  /** What the caller observes afterwards: the database state and the re-raised error, if any. */
  datatype Outcome<S> = Outcome(state: S, error: Option<DbError>)

  /**
   * `db_transaction`: commit the body's writes when it completes; roll back
   * to the state before the block and re-raise when it raises.
   */
  function Transaction<S>(start: S, body: Attempt<S>): (r: Outcome<S>)
    ensures r.error.None? <==> body.Completed?
    ensures body.Completed? ==> r.state == body.state
    ensures body.Raised? ==> r.state == start && r.error == Some(body.error)
  {
    match body
    case Completed(s) => Outcome(s, None)
    case Raised(_, e) => Outcome(start, Some(e))
  }
}

=== FILE: server.dfy ===
/**
 * The in-memory room registry of the socket server and the handlers that
 * change it. A handler is a pure step from the registry state to the next
 * state plus the events it emits, each with the set of sessions it reaches.
 *
 * Socket.io rooms ("channels") are modelled apart from each room's `users`:
 * `enter_room` and `leave_room` change the channels, and an emit with
 * `room=room_id` reaches the channel, minus the sender under `skip_sid`.
 */
module Server {
  import opened Wrappers
  import opened Entities
  import Text
  import Listing

  type Sid = string
  type Time = nat

  /** A member record in `rooms[room_id]['users']`; `identity` is the `username` of an authenticated session. */
  datatype Member = Member(name: string, joinedAt: Time, identity: Option<string>)

  /** One room of the registry. `hexData` keeps each cell's `fillColor`. */
  datatype Room = Room(name: string, hexData: map<HexKey, Color>, lines: seq<Line>, users: map<Sid, Member>,
                       owner: Option<string>, createdAt: Time, lastActivity: Time)

  /**
   * `user_sessions[sid]`. `is_authenticated` and `username` are only ever set
   * together, so they are one field: `identity` is the username when
   * authenticated and None otherwise.
   */
  datatype Session = Session(roomId: Option<RoomId>, userName: Option<string>, identity: Option<string>)

  datatype State = State(rooms: map<RoomId, Room>, sessions: map<Sid, Session>, channels: map<RoomId, set<Sid>>)

  datatype Message =
    | RoomCreated(roomId: RoomId, roomName: string, userName: string, isOwner: bool,
                  hexData: map<HexKey, Color>, lines: seq<Line>, users: map<Sid, Member>)
    | RoomJoined(roomId: RoomId, roomName: string, userName: string, isOwner: bool,
                 hexData: map<HexKey, Color>, lines: seq<Line>, users: map<Sid, Member>)
    | UserJoined(userName: string, isAuthenticated: bool, usersCount: nat)
    | UserLeft(leaver: Option<string>, usersCount: nat)
    | RoomLeft
    | RoomError(message: string)
    | RoomDeleted(message: string)
    | HexUpdated(hexKey: HexKey, fillColor: Color, editor: Option<string>)
    | LineAdded(line: Line, editor: Option<string>)
    | HexErased(hexKey: HexKey, lines: seq<Line>, editor: Option<string>)
    | RoomsList(rooms: seq<Listing.RoomSummary>)

  datatype Event = Event(body: Message, to: set<Sid>)

  /** The state after a handler and the events it emitted, in order. */
  datatype Step = Step(state: State, events: seq<Event>)

  const UnnamedRoom := "Unnamed Room"
  const Anonymous := "Anonymous"
  const RoomNotFound := "Room not found"
  const MustBeInRoom := "You must be in a room to delete it"
  const OthersPresent := "Cannot delete room with other users present"

  // ---------------------------------------------------------------- channels

  /** The sessions subscribed to a room's channel. */
  function Channel(channels: map<RoomId, set<Sid>>, roomId: RoomId): set<Sid> {
    if roomId in channels then channels[roomId] else {}
  }

  /** `sio.enter_room(sid, room_id)`. */
  function Enter(channels: map<RoomId, set<Sid>>, roomId: RoomId, sid: Sid): (r: map<RoomId, set<Sid>>)
    ensures Channel(r, roomId) == Channel(channels, roomId) + {sid}
    ensures forall other | other != roomId :: Channel(r, other) == Channel(channels, other)
  {
    channels[roomId := Channel(channels, roomId) + {sid}]
  }

  /** `sio.leave_room(sid, room_id)`. */
  function Leave(channels: map<RoomId, set<Sid>>, roomId: RoomId, sid: Sid): (r: map<RoomId, set<Sid>>)
    ensures Channel(r, roomId) == Channel(channels, roomId) - {sid}
    ensures forall other | other != roomId :: Channel(r, other) == Channel(channels, other)
  {
    if roomId in channels then channels[roomId := channels[roomId] - {sid}] else channels
  }

  /** What socket.io does once a connection is gone: the sid leaves every channel. */
  function LeaveAll(channels: map<RoomId, set<Sid>>, sid: Sid): (r: map<RoomId, set<Sid>>)
    ensures forall roomId :: Channel(r, roomId) == Channel(channels, roomId) - {sid}
  {
    map roomId | roomId in channels :: channels[roomId] - {sid}
  }

  // ---------------------------------------------------------------- helpers

  /** `create_new_room`: a room with no cells, no lines and no users, active since `now`. */
  function NewRoom(name: string, owner: Option<string>, now: Time): (r: Room)
    ensures r.hexData == map[] && r.lines == [] && r.users == map[]
    ensures r.name == name && r.owner == owner && r.createdAt == now && r.lastActivity == now
  {
    Room(name, map[], [], map[], owner, now, now)
  }

  /** The room an edit from `sid` applies to: the session's truthy `room_id`, when that room still exists. */
  function ActiveRoom(s: State, sid: Sid): (r: Option<RoomId>)
    ensures r.Some? <==> sid in s.sessions && Text.Truthy(s.sessions[sid].roomId) && s.sessions[sid].roomId.value in s.rooms
    ensures r.Some? ==> r == s.sessions[sid].roomId && r.value in s.rooms
  {
    if sid in s.sessions && Text.Truthy(s.sessions[sid].roomId) && s.sessions[sid].roomId.value in s.rooms
    then s.sessions[sid].roomId
    else None
  }

  /** `user_data.get('username')` with `user_data = user_sessions.get(sid, {})`. */
  function IdentityOf(s: State, sid: Sid): Option<string> {
    if sid in s.sessions then s.sessions[sid].identity else None
  }

  /** The display name a handler uses: the username when authenticated, else the payload's `user_name`. */
  function ActualName(s: State, sid: Sid, userName: Option<string>): (n: string)
    ensures IdentityOf(s, sid).Some? ==> n == IdentityOf(s, sid).value
    ensures IdentityOf(s, sid).None? && userName.Some? ==> n == userName.value
    ensures IdentityOf(s, sid).None? && userName.None? ==> n == Anonymous
  {
    if sid in s.sessions && s.sessions[sid].identity.Some? then s.sessions[sid].identity.value
    else userName.GetOr(Anonymous)
  }

  /** The room name `create_room` uses: the stripped payload name, or "Unnamed Room" when blank or absent. */
  function RoomName(roomName: Option<string>): (r: string)
    ensures r != []
    ensures roomName.None? ==> r == UnnamedRoom
    ensures roomName.Some? && Text.AllSpace(roomName.value) ==> r == UnnamedRoom
    ensures roomName.Some? && !Text.AllSpace(roomName.value) ==> r == Text.Strip(roomName.value)
  {
    // the default "Unnamed Room" has no surrounding white space, so stripping it is the identity
    if roomName.None? then UnnamedRoom
    else
      Text.StripEmptyIffBlank(roomName.value);
      var stripped := Text.Strip(roomName.value);
      if stripped == [] then UnnamedRoom else stripped
  }

  // ---------------------------------------------------------------- edits

  /** The recipients of a room broadcast with `skip_sid=sid`. */
  function Others(s: State, roomId: RoomId, sid: Sid): set<Sid> {
    Channel(s.channels, roomId) - {sid}
  }

  /** `hex_update`: set the cell's colour to exactly the one sent (the default too) and relay it to the others. */
  function HexUpdate(s: State, sid: Sid, key: HexKey, color: Color, now: Time): (r: Step)
    ensures ActiveRoom(s, sid).None? ==> r == Step(s, [])
    ensures ActiveRoom(s, sid).Some? ==>
              var roomId := ActiveRoom(s, sid).value;
              var room := s.rooms[roomId];
              && r.state.sessions == s.sessions && r.state.channels == s.channels
              && r.state.rooms.Keys == s.rooms.Keys
              && (forall other | other in s.rooms && other != roomId :: r.state.rooms[other] == s.rooms[other])
              && r.state.rooms[roomId].hexData.Keys == room.hexData.Keys + {key}
              && r.state.rooms[roomId].hexData[key] == color
              && (forall k | k in room.hexData && k != key :: r.state.rooms[roomId].hexData[k] == room.hexData[k])
              && r.state.rooms[roomId] == room.(hexData := r.state.rooms[roomId].hexData, lastActivity := now)
              && r.events == [Event(HexUpdated(key, color, s.sessions[sid].userName), Others(s, roomId, sid))]
  {
    match ActiveRoom(s, sid)
    case None => Step(s, [])
    case Some(roomId) =>
      var room := s.rooms[roomId];
      var room' := room.(hexData := room.hexData[key := color], lastActivity := now);
      Step(s.(rooms := s.rooms[roomId := room']),
           [Event(HexUpdated(key, color, s.sessions[sid].userName), Others(s, roomId, sid))])
  }

  /** `line_add`: append the line after the existing ones and relay it to the others. */
  function LineAdd(s: State, sid: Sid, line: Line, now: Time): (r: Step)
    ensures ActiveRoom(s, sid).None? ==> r == Step(s, [])
    ensures ActiveRoom(s, sid).Some? ==>
              var roomId := ActiveRoom(s, sid).value;
              var room := s.rooms[roomId];
              && r.state.sessions == s.sessions && r.state.channels == s.channels
              && r.state.rooms.Keys == s.rooms.Keys
              && (forall other | other in s.rooms && other != roomId :: r.state.rooms[other] == s.rooms[other])
              && |r.state.rooms[roomId].lines| == |room.lines| + 1
              && r.state.rooms[roomId].lines[..|room.lines|] == room.lines
              && r.state.rooms[roomId].lines[|room.lines|] == line
              && r.state.rooms[roomId] == room.(lines := r.state.rooms[roomId].lines, lastActivity := now)
              && r.events == [Event(LineAdded(line, s.sessions[sid].userName), Others(s, roomId, sid))]
  {
    match ActiveRoom(s, sid)
    case None => Step(s, [])
    case Some(roomId) =>
      var room := s.rooms[roomId];
      var room' := room.(lines := room.lines + [line], lastActivity := now);
      Step(s.(rooms := s.rooms[roomId := room']),
           [Event(LineAdded(line, s.sessions[sid].userName), Others(s, roomId, sid))])
  }

  /**
   * The filter reads `line['start']['key']` and, only when that differs from
   * `key`, `line['end']['key']`: a line missing the endpoint it reads raises.
   */
  predicate Readable(l: Line, key: HexKey) {
    l.start.Some? && (l.start.value == key || l.end.Some?)
  }

  /**
   * The list comprehension of `hex_erase`: the lines with neither endpoint on
   * `key`, in order; None when reading some line raises KeyError.
   */
  function FilterLines(lines: seq<Line>, key: HexKey): (r: Option<seq<Line>>)
    ensures r.Some? ==> |r.value| <= |lines|
    ensures r.Some? ==> forall l | l in r.value :: l in lines && !EndsAt(l, key)
    decreases |lines|
  {
    if lines == [] then Some([])
    else if !Readable(lines[0], key) then None
    else match FilterLines(lines[1..], key)
      case None => None
      case Some(rest) => Some(if EndsAt(lines[0], key) then rest else [lines[0]] + rest)
  }

  /** `hex_erase`'s colour reset: an existing cell goes back to the default; an absent one stays absent. */
  function ResetCell(hexData: map<HexKey, Color>, key: HexKey): (m: map<HexKey, Color>)
    ensures m.Keys == hexData.Keys
    ensures key in m ==> m[key] == Default
    ensures forall k | k in hexData && k != key :: m[k] == hexData[k]
  {
    if key in hexData then hexData[key := Default] else hexData
  }

  /**
   * `hex_erase`: reset the cell, drop the lines ending on it and relay the
   * remaining lines. When a line lacks the endpoint the filter reads, the
   * handler raises after the reset: the reset stays, nothing else happens.
   */
  function HexErase(s: State, sid: Sid, key: HexKey, now: Time): (r: Step)
    ensures ActiveRoom(s, sid).None? ==> r == Step(s, [])
    ensures ActiveRoom(s, sid).Some? ==>
              var roomId := ActiveRoom(s, sid).value;
              var room := s.rooms[roomId];
              && r.state.sessions == s.sessions && r.state.channels == s.channels
              && r.state.rooms.Keys == s.rooms.Keys
              && (forall other | other in s.rooms && other != roomId :: r.state.rooms[other] == s.rooms[other])
              && r.state.rooms[roomId].hexData == ResetCell(room.hexData, key)
              && (FilterLines(room.lines, key).None? ==>
                    r.state.rooms[roomId] == room.(hexData := ResetCell(room.hexData, key)) && r.events == [])
              && (FilterLines(room.lines, key).Some? ==>
                    var kept := FilterLines(room.lines, key).value;
                    && r.state.rooms[roomId] == room.(hexData := ResetCell(room.hexData, key), lines := kept, lastActivity := now)
                    && r.events == [Event(HexErased(key, kept, s.sessions[sid].userName), Others(s, roomId, sid))])
  {
    match ActiveRoom(s, sid)
    case None => Step(s, [])
    case Some(roomId) =>
      var room := s.rooms[roomId];
      var reset := room.(hexData := ResetCell(room.hexData, key));
      match FilterLines(room.lines, key)
      case None => Step(s.(rooms := s.rooms[roomId := reset]), [])
      case Some(kept) =>
        Step(s.(rooms := s.rooms[roomId := reset.(lines := kept, lastActivity := now)]),
             [Event(HexErased(key, kept, s.sessions[sid].userName), Others(s, roomId, sid))])
  }

  // ---------------------------------------------------------------- joining and leaving

  /** `generate_room_id` on one uuid draw: its first six characters, upper-cased. */
  function RoomIdOf(uuid: string): (id: RoomId)
    ensures |id| <= 6
  {
    Text.Upper(if |uuid| <= 6 then uuid else uuid[..6])
  }

  /**
   * The retry loop of `create_room`: the index of the first draw, from `from`
   * on, whose id is not yet a room. The uuid source is an oracle that
   * eventually yields a fresh id.
   */
  function FreshIndex(draws: seq<string>, rooms: map<RoomId, Room>, from: nat): (j: nat)
    requires from <= |draws|
    requires exists j | from <= j < |draws| :: RoomIdOf(draws[j]) !in rooms
    ensures from <= j < |draws| && RoomIdOf(draws[j]) !in rooms
    ensures forall i | from <= i < j :: RoomIdOf(draws[i]) in rooms
    decreases |draws| - from
  {
    if RoomIdOf(draws[from]) !in rooms then from else FreshIndex(draws, rooms, from + 1)
  }

  /** The id `create_room` settles on. */
  function NewRoomId(draws: seq<string>, rooms: map<RoomId, Room>): (id: RoomId)
    requires exists j | 0 <= j < |draws| :: RoomIdOf(draws[j]) !in rooms
    ensures id !in rooms
  {
    RoomIdOf(draws[FreshIndex(draws, rooms, 0)])
  }

  /** A session now in `roomId` under `name`; its identity is kept. */
  function Entered(session: Session, roomId: RoomId, name: string): Session {
    session.(roomId := Some(roomId), userName := Some(name))
  }

  /**
   * `create_room`: a fresh id, a new room owned by the authenticated
   * username (None otherwise) with the creator as its only user, and
   * `room_created` to the creator. A sid without a session raises KeyError
   * right after entering the channel: the room stays, with no user.
   */
  function CreateRoom(s: State, sid: Sid, userName: Option<string>, roomName: Option<string>,
                      draws: seq<string>, now: Time): (r: Step)
    requires exists j | 0 <= j < |draws| :: RoomIdOf(draws[j]) !in s.rooms
    ensures var id := NewRoomId(draws, s.rooms);
            && id !in s.rooms
            && r.state.rooms.Keys == s.rooms.Keys + {id}
            && (forall other | other in s.rooms :: r.state.rooms[other] == s.rooms[other])
            && r.state.rooms[id].hexData == map[] && r.state.rooms[id].lines == []
            && r.state.rooms[id].name == RoomName(roomName)
            && r.state.rooms[id].owner == IdentityOf(s, sid)
            && r.state.rooms[id].createdAt == now == r.state.rooms[id].lastActivity
            && Channel(r.state.channels, id) == Channel(s.channels, id) + {sid}
            && (forall other | other != id :: Channel(r.state.channels, other) == Channel(s.channels, other))
            && (sid !in s.sessions ==> r.state.rooms[id].users == map[] && r.state.sessions == s.sessions && r.events == [])
            && (sid in s.sessions ==>
                  var member := Member(ActualName(s, sid, userName), now, IdentityOf(s, sid));
                  && r.state.rooms[id].users == map[sid := member]
                  && r.state.sessions == s.sessions[sid := Entered(s.sessions[sid], id, member.name)]
                  && r.events == [Event(RoomCreated(id, RoomName(roomName), member.name, IdentityOf(s, sid).Some?,
                                                    map[], [], map[sid := member]), {sid})])
  {
    var id := NewRoomId(draws, s.rooms);
    var name := RoomName(roomName);
    var owner := IdentityOf(s, sid);
    var channels := Enter(s.channels, id, sid);
    if sid !in s.sessions then
      Step(State(s.rooms[id := NewRoom(name, owner, now)], s.sessions, channels), [])
    else
      var member := Member(ActualName(s, sid, userName), now, owner);
      var room := NewRoom(name, owner, now).(users := map[sid := member]);
      Step(State(s.rooms[id := room], s.sessions[sid := Entered(s.sessions[sid], id, member.name)], channels),
           [Event(RoomCreated(id, name, member.name, owner.Some?, room.hexData, room.lines, room.users), {sid})])
  }

  /** `join_room`'s ownership flag: the room has a (truthy) owner and the session is authenticated as it. */
  function IsOwner(room: Room, identity: Option<string>): (b: bool)
    ensures b ==> identity.Some? && identity == room.owner
    ensures identity.Some? && identity == room.owner && room.owner != Some("") ==> b
    ensures room.owner.None? || room.owner == Some("") ==> !b
    ensures identity.None? ==> !b
  {
    Text.Truthy(room.owner) && identity == room.owner
  }

  /**
   * `join_room`: look the upper-cased id up; an unknown room answers
   * `room_error` to the sender alone. Otherwise the sender enters the channel,
   * becomes a user, gets `room_joined` with the room's state, and the rest of
   * the channel gets `user_joined`. The sender's previous room is not left.
   */
  function JoinRoom(s: State, sid: Sid, roomIdArg: Option<string>, userName: Option<string>, now: Time): (r: Step)
    ensures var id := Text.Upper(roomIdArg.GetOr(""));
            && (id !in s.rooms ==> r == Step(s, [Event(RoomError(RoomNotFound), {sid})]))
            && (id in s.rooms ==>
                  && r.state.rooms.Keys == s.rooms.Keys
                  && (forall other | other in s.rooms && other != id :: r.state.rooms[other] == s.rooms[other])
                  && Channel(r.state.channels, id) == Channel(s.channels, id) + {sid}
                  && (forall other | other != id :: Channel(r.state.channels, other) == Channel(s.channels, other))
                  && (sid !in s.sessions ==> r.state.rooms == s.rooms && r.state.sessions == s.sessions && r.events == [])
                  && (sid in s.sessions ==>
                        var room := s.rooms[id];
                        var member := Member(ActualName(s, sid, userName), now, IdentityOf(s, sid));
                        var users := room.users[sid := member];
                        && r.state.rooms[id] == room.(users := users, lastActivity := now)
                        && r.state.sessions == s.sessions[sid := Entered(s.sessions[sid], id, member.name)]
                        && r.events == [Event(RoomJoined(id, room.name, member.name, IsOwner(room, IdentityOf(s, sid)),
                                                         room.hexData, room.lines, users), {sid}),
                                        Event(UserJoined(member.name, IdentityOf(s, sid).Some?, |users|),
                                              Channel(s.channels, id) - {sid})]))
  {
    var id := Text.Upper(roomIdArg.GetOr(""));
    if id !in s.rooms then Step(s, [Event(RoomError(RoomNotFound), {sid})])
    else
      var channels := Enter(s.channels, id, sid);
      if sid !in s.sessions then Step(s.(channels := channels), [])
      else
        var room := s.rooms[id];
        var member := Member(ActualName(s, sid, userName), now, IdentityOf(s, sid));
        var room' := room.(users := room.users[sid := member], lastActivity := now);
        Step(State(s.rooms[id := room'], s.sessions[sid := Entered(s.sessions[sid], id, member.name)], channels),
             [Event(RoomJoined(id, room.name, member.name, IsOwner(room, IdentityOf(s, sid)), room'.hexData, room'.lines, room'.users), {sid}),
              Event(UserJoined(member.name, IdentityOf(s, sid).Some?, |room'.users|), Channel(s.channels, id) - {sid})])
  }

  /** The session's truthy room id, if any. */
  function SessionRoom(s: State, sid: Sid): (r: Option<RoomId>)
    ensures r.Some? <==> sid in s.sessions && Text.Truthy(s.sessions[sid].roomId)
    ensures r.Some? ==> r == s.sessions[sid].roomId
  {
    if sid in s.sessions && Text.Truthy(s.sessions[sid].roomId) then s.sessions[sid].roomId else None
  }

  /**
   * `leave_room`: when the session's room exists and lists the sender, drop
   * the sender from its users and channel and tell the channel `user_left`;
   * in every case with a room clear the session's room and answer
   * `room_left`. The room itself stays, even empty.
   */
  function LeaveRoom(s: State, sid: Sid, now: Time): (r: Step)
    ensures r.state.rooms.Keys == s.rooms.Keys
    ensures SessionRoom(s, sid).None? ==> r == Step(s, [Event(RoomLeft, {sid})])
    ensures SessionRoom(s, sid).Some? ==>
              var id := SessionRoom(s, sid).value;
              && r.state.sessions == s.sessions[sid := s.sessions[sid].(roomId := None)]
              && (id in s.rooms && sid in s.rooms[id].users ==>
                    var users := s.rooms[id].users - {sid};
                    && r.state.rooms == s.rooms[id := s.rooms[id].(users := users, lastActivity := now)]
                    && r.state.channels == Leave(s.channels, id, sid)
                    && r.events == [Event(UserLeft(s.sessions[sid].userName, |users|), Channel(s.channels, id) - {sid}),
                                    Event(RoomLeft, {sid})])
              && (!(id in s.rooms && sid in s.rooms[id].users) ==>
                    r.state.rooms == s.rooms && r.state.channels == s.channels && r.events == [Event(RoomLeft, {sid})])
  {
    match SessionRoom(s, sid)
    case None => Step(s, [Event(RoomLeft, {sid})])
    case Some(id) =>
      var sessions := s.sessions[sid := s.sessions[sid].(roomId := None)];
      if id in s.rooms && sid in s.rooms[id].users then
        var room := s.rooms[id].(users := s.rooms[id].users - {sid}, lastActivity := now);
        var channels := Leave(s.channels, id, sid);
        Step(State(s.rooms[id := room], sessions, channels),
             [Event(UserLeft(s.sessions[sid].userName, |room.users|), Channel(channels, id)), Event(RoomLeft, {sid})])
      else
        Step(s.(sessions := sessions), [Event(RoomLeft, {sid})])
  }

  /** The notice `delete_room` sends to the deleting user. */
  function DeletedNotice(name: string): string {
    "Room \"" + name + "\" has been deleted"
  }

  /**
   * `delete_room`: refused with `room_error` when the sender is in no room,
   * the room is gone, or it has more than one user; otherwise the room is
   * removed from the registry, the sender's session and channel left.
   */
  function DeleteRoom(s: State, sid: Sid): (r: Step)
    ensures SessionRoom(s, sid).None? ==> r == Step(s, [Event(RoomError(MustBeInRoom), {sid})])
    ensures SessionRoom(s, sid).Some? ==>
              var id := SessionRoom(s, sid).value;
              && (id !in s.rooms ==> r == Step(s, [Event(RoomError(RoomNotFound), {sid})]))
              && (id in s.rooms && |s.rooms[id].users| > 1 ==> r == Step(s, [Event(RoomError(OthersPresent), {sid})]))
              && (id in s.rooms && |s.rooms[id].users| <= 1 ==>
                    && r.state.rooms == s.rooms - {id}
                    && r.state.sessions == s.sessions[sid := s.sessions[sid].(roomId := None)]
                    && r.state.channels == Leave(s.channels, id, sid)
                    && r.events == [Event(RoomDeleted(DeletedNotice(s.rooms[id].name)), {sid})])
  {
    match SessionRoom(s, sid)
    case None => Step(s, [Event(RoomError(MustBeInRoom), {sid})])
    case Some(id) =>
      if id !in s.rooms then Step(s, [Event(RoomError(RoomNotFound), {sid})])
      else if |s.rooms[id].users| > 1 then Step(s, [Event(RoomError(OthersPresent), {sid})])
      else
        Step(State(s.rooms - {id}, s.sessions[sid := s.sessions[sid].(roomId := None)], Leave(s.channels, id, sid)),
             [Event(RoomDeleted(DeletedNotice(s.rooms[id].name)), {sid})])
  }

  /**
   * `disconnect`: when the session's room exists and lists the sender, drop
   * it from the users and tell the whole channel `user_left`; then forget
   * the session. Socket.io afterwards takes the sid out of every channel.
   */
  function Disconnect(s: State, sid: Sid, now: Time): (r: Step)
    ensures sid !in r.state.sessions && r.state.sessions == s.sessions - {sid}
    ensures r.state.channels == LeaveAll(s.channels, sid)
    ensures r.state.rooms.Keys == s.rooms.Keys
    ensures var id := SessionRoom(s, sid);
            if id.Some? && id.value in s.rooms && sid in s.rooms[id.value].users then
              var users := s.rooms[id.value].users - {sid};
              && r.state.rooms == s.rooms[id.value := s.rooms[id.value].(users := users, lastActivity := now)]
              && r.events == [Event(UserLeft(s.sessions[sid].userName, |users|), Channel(s.channels, id.value))]
            else r.state.rooms == s.rooms && r.events == []
  {
    var rest := State(s.rooms, s.sessions - {sid}, LeaveAll(s.channels, sid));
    match SessionRoom(s, sid)
    case Some(id) =>
      if id in s.rooms && sid in s.rooms[id].users then
        var room := s.rooms[id].(users := s.rooms[id].users - {sid}, lastActivity := now);
        Step(rest.(rooms := s.rooms[id := room]),
             [Event(UserLeft(s.sessions[sid].userName, |room.users|), Channel(s.channels, id))])
      else Step(rest, [])
    case None => Step(rest, [])
  }

  // ---------------------------------------------------------------- listing

  /** One entry of `rooms_list`. */
  function Summary(id: RoomId, room: Room): (e: Listing.RoomSummary)
    ensures e.isActive <==> room.users != map[]
  {
    Listing.RoomSummary(id, room.name, |room.users|, room.createdAt, room.lastActivity, |room.users| > 0)
  }

  /** `list` holds exactly the summaries of the rooms in `ids`. */
  predicate Summarises(list: seq<Listing.RoomSummary>, rooms: map<RoomId, Room>, ids: set<RoomId>) {
    && (forall e | e in list :: e.roomId in ids && e.roomId in rooms && e == Summary(e.roomId, rooms[e.roomId]))
    && (forall id | id in ids && id in rooms :: Summary(id, rooms[id]) in list)
  }

  /** One round of `get_rooms`' loop: summarising one more room keeps the list sorted and complete so far. */
  lemma InsertSummary(list: seq<Listing.RoomSummary>, rooms: map<RoomId, Room>, remaining: set<RoomId>, id: RoomId)
    requires id in remaining && remaining <= rooms.Keys
    requires Listing.Descending(list) && |list| + |remaining| == |rooms|
    requires Summarises(list, rooms, rooms.Keys - remaining)
    ensures var next := Listing.Insert(Summary(id, rooms[id]), list);
            && Listing.Descending(next) && |next| + |remaining - {id}| == |rooms|
            && Summarises(next, rooms, rooms.Keys - (remaining - {id}))
  {
    Listing.InsertSorted(Summary(id, rooms[id]), list);
    Listing.InsertMembers(Summary(id, rooms[id]), list);
    assert rooms.Keys - (remaining - {id}) == (rooms.Keys - remaining) + {id};
  }

  /**
   * The summaries `get_rooms` builds, sorted most recently active first:
   * each room exactly once. The rooms are taken in an unspecified order (the
   * registry's insertion order is not modelled), so ties may come either way.
   */
  method SortedSummaries(rooms: map<RoomId, Room>) returns (list: seq<Listing.RoomSummary>)
    ensures Listing.Descending(list)
    ensures forall i, j | 0 <= i < j < |list| :: list[i].lastActivity >= list[j].lastActivity
    ensures |list| == |rooms|
    ensures Summarises(list, rooms, rooms.Keys)
  {
    list := [];
    var remaining := rooms.Keys;
    while remaining != {}
      invariant remaining <= rooms.Keys
      invariant Listing.Descending(list) && |list| + |remaining| == |rooms|
      invariant Summarises(list, rooms, rooms.Keys - remaining)
      decreases |remaining|
    {
      var id :| id in remaining;
      InsertSummary(list, rooms, remaining, id);
      list := Listing.Insert(Summary(id, rooms[id]), list);
      remaining := remaining - {id};
    }
    assert rooms.Keys - remaining == rooms.Keys;
    Listing.DescendingPairwise(list);
  }

  /** `get_rooms`: the sorted summaries, to the asker alone; nothing changes. */
  method GetRooms(s: State, sid: Sid) returns (r: Step)
    ensures r.state == s
    ensures |r.events| == 1 && r.events[0].to == {sid} && r.events[0].body.RoomsList?
    ensures var list := r.events[0].body.rooms;
            && Listing.Descending(list)
            && (forall i, j | 0 <= i < j < |list| :: list[i].lastActivity >= list[j].lastActivity)
            && |list| == |s.rooms|
            && Summarises(list, s.rooms, s.rooms.Keys)
  {
    var list := SortedSummaries(s.rooms);
    r := Step(s, [Event(RoomsList(list), {sid})]);
  }
}

=== FILE: server_props.dfy ===
/**
 * Properties of the socket handlers that relate several calls: what the
 * line filter of `hex_erase` keeps, the session/room invariant every handler
 * preserves, who receives a relayed edit, and how joining and leaving
 * compose.
 */
module ServerProps {
  import opened Wrappers
  import opened Entities
  import opened Server
  import Text

  // ---------------------------------------------------------------- the line filter of hex_erase

  /** The filter raises exactly when some line cannot be read the way the comprehension reads it. */
  lemma {:induction false} FilterLinesDefined(lines: seq<Line>, key: HexKey)
    ensures FilterLines(lines, key).Some? <==> forall i | 0 <= i < |lines| :: Readable(lines[i], key)
    decreases |lines|
  {
    if lines != [] {
      FilterLinesDefined(lines[1..], key);
      assert forall i | 1 <= i < |lines| :: lines[i] == lines[1..][i - 1];
    }
  }

  /**
   * The filter works line by line: a concatenation is readable exactly when
   * both parts are, and then its kept lines are those of the first part
   * followed by those of the second.
   */
  lemma {:induction false} FilterLinesAppend(a: seq<Line>, b: seq<Line>, key: HexKey)
    ensures FilterLines(a + b, key).Some? <==> FilterLines(a, key).Some? && FilterLines(b, key).Some?
    ensures FilterLines(a + b, key).Some? ==>
              FilterLines(a + b, key).value == FilterLines(a, key).value + FilterLines(b, key).value
    decreases |a|
  {
    if a == [] {
      assert a + b == b;
    } else {
      var ab := a + b;
      assert ab[0] == a[0] && ab[1..] == a[1..] + b;
      FilterLinesAppend(a[1..], b, key);
      if Readable(a[0], key) && FilterLines(a[1..], key).Some? && FilterLines(b, key).Some? {
        var restA := FilterLines(a[1..], key).value;
        var restB := FilterLines(b, key).value;
        assert FilterLines(ab[1..], key) == Some(restA + restB);
        if !EndsAt(a[0], key) {
          assert [a[0]] + (restA + restB) == ([a[0]] + restA) + restB;
        }
      }
    }
  }

  /**
   * What survives the filter: every line not ending on the cell, as often as
   * it occurred, and nothing else, in the original order (at every split
   * point, the kept lines of the front come before those of the back).
   */
  lemma FilterLinesKeeps(lines: seq<Line>, key: HexKey)
    requires FilterLines(lines, key).Some?
    ensures forall l :: multiset(FilterLines(lines, key).value)[l] == if EndsAt(l, key) then 0 else multiset(lines)[l]
    ensures forall i | 0 <= i <= |lines| ::
              && FilterLines(lines[..i], key).Some? && FilterLines(lines[i..], key).Some?
              && FilterLines(lines, key).value == FilterLines(lines[..i], key).value + FilterLines(lines[i..], key).value
  {
    FilterLinesCounts(lines, key);
    forall i | 0 <= i <= |lines|
      ensures && FilterLines(lines[..i], key).Some? && FilterLines(lines[i..], key).Some?
              && FilterLines(lines, key).value == FilterLines(lines[..i], key).value + FilterLines(lines[i..], key).value
    {
      FilterLinesSplit(lines, key, i);
    }
  }

  /** Splitting the lines anywhere, the kept lines of the front come before those of the back. */
  lemma FilterLinesSplit(lines: seq<Line>, key: HexKey, i: nat)
    requires FilterLines(lines, key).Some? && i <= |lines|
    ensures && FilterLines(lines[..i], key).Some? && FilterLines(lines[i..], key).Some?
            && FilterLines(lines, key).value == FilterLines(lines[..i], key).value + FilterLines(lines[i..], key).value
  {
    assert lines[..i] + lines[i..] == lines;
    FilterLinesAppend(lines[..i], lines[i..], key);
  }

  /** How many copies of each line the filter keeps. */
  lemma FilterLinesCounts(lines: seq<Line>, key: HexKey)
    requires FilterLines(lines, key).Some?
    ensures forall l :: multiset(FilterLines(lines, key).value)[l] == if EndsAt(l, key) then 0 else multiset(lines)[l]
  {
    forall l ensures multiset(FilterLines(lines, key).value)[l] == if EndsAt(l, key) then 0 else multiset(lines)[l] {
      FilterLinesCountOf(lines, key, l);
    }
  }

  /** How many copies of one line the filter keeps: none if it ends on the cell, otherwise all. */
  lemma {:induction false} FilterLinesCountOf(lines: seq<Line>, key: HexKey, l: Line)
    requires FilterLines(lines, key).Some?
    ensures multiset(FilterLines(lines, key).value)[l] == if EndsAt(l, key) then 0 else multiset(lines)[l]
    decreases |lines|
  {
    if lines != [] {
      FilterLinesCountOf(lines[1..], key, l);
      var rest := FilterLines(lines[1..], key).value;
      var kept := if EndsAt(lines[0], key) then rest else [lines[0]] + rest;
      assert FilterLines(lines, key) == Some(kept);
      assert multiset(lines) == multiset{lines[0]} + multiset(lines[1..]) by {
        assert lines == [lines[0]] + lines[1..];
      }
      assert multiset(kept) == if EndsAt(lines[0], key) then multiset(rest) else multiset{lines[0]} + multiset(rest);
    }
  }

  /** Filtering what was already filtered keeps it as it is. */
  lemma {:induction false} FilterLinesIdempotent(lines: seq<Line>, key: HexKey)
    requires FilterLines(lines, key).Some?
    ensures FilterLines(FilterLines(lines, key).value, key) == FilterLines(lines, key)
    decreases |lines|
  {
    if lines != [] {
      FilterLinesIdempotent(lines[1..], key);
      var rest := FilterLines(lines[1..], key).value;
      if !EndsAt(lines[0], key) {
        assert ([lines[0]] + rest)[1..] == rest;
      }
    }
  }

  /** Erasing a cell a second time changes nothing more (only the relay repeats). */
  lemma HexEraseIdempotent(s: State, sid: Sid, key: HexKey, now: Time)
    ensures var once := HexErase(s, sid, key, now).state;
            HexErase(once, sid, key, now).state == once
  {
    var once := HexErase(s, sid, key, now).state;
    if ActiveRoom(s, sid).Some? {
      var roomId := ActiveRoom(s, sid).value;
      assert ActiveRoom(once, sid) == Some(roomId);
      var room := s.rooms[roomId];
      if FilterLines(room.lines, key).Some? {
        FilterLinesIdempotent(room.lines, key);
      }
      assert ResetCell(ResetCell(room.hexData, key), key) == ResetCell(room.hexData, key);
    }
  }

  // ---------------------------------------------------------------- the session invariant

  /** Every session that names a room points to an existing room that lists it among its users. */
  ghost predicate Consistent(s: State) {
    forall sid | SessionRoom(s, sid).Some? ::
      SessionRoom(s, sid).value in s.rooms && sid in s.rooms[SessionRoom(s, sid).value].users
  }

  /** Under the invariant a session's room is the room its edits apply to. */
  lemma ConsistentActive(s: State, sid: Sid)
    requires Consistent(s)
    ensures ActiveRoom(s, sid) == SessionRoom(s, sid)
  {
  }

  lemma CreateRoomConsistent(s: State, sid: Sid, userName: Option<string>, roomName: Option<string>,
                             draws: seq<string>, now: Time)
    requires exists j | 0 <= j < |draws| :: RoomIdOf(draws[j]) !in s.rooms
    requires Consistent(s)
    ensures Consistent(CreateRoom(s, sid, userName, roomName, draws, now).state)
  {
    var r := CreateRoom(s, sid, userName, roomName, draws, now).state;
    forall other | SessionRoom(r, other).Some?
      ensures SessionRoom(r, other).value in r.rooms && other in r.rooms[SessionRoom(r, other).value].users
    {
      if other != sid || sid !in s.sessions {
        assert SessionRoom(r, other) == SessionRoom(s, other);
      }
    }
  }

  lemma JoinRoomConsistent(s: State, sid: Sid, roomIdArg: Option<string>, userName: Option<string>, now: Time)
    requires Consistent(s)
    ensures Consistent(JoinRoom(s, sid, roomIdArg, userName, now).state)
  {
    var r := JoinRoom(s, sid, roomIdArg, userName, now).state;
    var id := Text.Upper(roomIdArg.GetOr(""));
    forall other | SessionRoom(r, other).Some?
      ensures SessionRoom(r, other).value in r.rooms && other in r.rooms[SessionRoom(r, other).value].users
    {
      if other != sid || id !in s.rooms || sid !in s.sessions {
        assert SessionRoom(r, other) == SessionRoom(s, other);
      }
    }
  }

  lemma LeaveRoomConsistent(s: State, sid: Sid, now: Time)
    requires Consistent(s)
    ensures Consistent(LeaveRoom(s, sid, now).state)
  {
    var r := LeaveRoom(s, sid, now).state;
    forall other | SessionRoom(r, other).Some?
      ensures SessionRoom(r, other).value in r.rooms && other in r.rooms[SessionRoom(r, other).value].users
    {
      assert other != sid || SessionRoom(s, sid).None?;
      assert SessionRoom(r, other) == SessionRoom(s, other);
    }
  }

  /**
   * Deleting needs the invariant itself: a room with at most one user, that
   * user being the deleter, is named by no other session.
   */
  lemma DeleteRoomConsistent(s: State, sid: Sid)
    requires Consistent(s)
    ensures Consistent(DeleteRoom(s, sid).state)
  {
    var r := DeleteRoom(s, sid).state;
    if SessionRoom(s, sid).Some? && SessionRoom(s, sid).value in s.rooms && |s.rooms[SessionRoom(s, sid).value].users| <= 1 {
      var id := SessionRoom(s, sid).value;
      forall other | SessionRoom(r, other).Some?
        ensures SessionRoom(r, other).value in r.rooms && other in r.rooms[SessionRoom(r, other).value].users
      {
        assert other != sid;
        assert SessionRoom(r, other) == SessionRoom(s, other);
        if SessionRoom(s, other).value == id {
          assert {sid, other} <= s.rooms[id].users.Keys;
          assert |{sid, other}| == 2;
          SubsetSize({sid, other}, s.rooms[id].users.Keys);
          assert false;
        }
      }
    }
  }

  lemma SubsetSize<T>(a: set<T>, b: set<T>)
    requires a <= b
    ensures |a| <= |b|
  {
    assert b == a + (b - a);
  }

  lemma DisconnectConsistent(s: State, sid: Sid, now: Time)
    requires Consistent(s)
    ensures Consistent(Disconnect(s, sid, now).state)
  {
    var r := Disconnect(s, sid, now).state;
    forall other | SessionRoom(r, other).Some?
      ensures SessionRoom(r, other).value in r.rooms && other in r.rooms[SessionRoom(r, other).value].users
    {
      assert SessionRoom(r, other) == SessionRoom(s, other);
    }
  }

  lemma HexUpdateConsistent(s: State, sid: Sid, key: HexKey, color: Color, now: Time)
    requires Consistent(s)
    ensures Consistent(HexUpdate(s, sid, key, color, now).state)
  {
    var r := HexUpdate(s, sid, key, color, now).state;
    forall other | SessionRoom(r, other).Some?
      ensures SessionRoom(r, other).value in r.rooms && other in r.rooms[SessionRoom(r, other).value].users
    {
      assert SessionRoom(r, other) == SessionRoom(s, other);
    }
  }

  lemma LineAddConsistent(s: State, sid: Sid, line: Line, now: Time)
    requires Consistent(s)
    ensures Consistent(LineAdd(s, sid, line, now).state)
  {
    var r := LineAdd(s, sid, line, now).state;
    forall other | SessionRoom(r, other).Some?
      ensures SessionRoom(r, other).value in r.rooms && other in r.rooms[SessionRoom(r, other).value].users
    {
      assert SessionRoom(r, other) == SessionRoom(s, other);
    }
  }

  lemma HexEraseConsistent(s: State, sid: Sid, key: HexKey, now: Time)
    requires Consistent(s)
    ensures Consistent(HexErase(s, sid, key, now).state)
  {
    var r := HexErase(s, sid, key, now).state;
    forall other | SessionRoom(r, other).Some?
      ensures SessionRoom(r, other).value in r.rooms && other in r.rooms[SessionRoom(r, other).value].users
    {
      assert SessionRoom(r, other) == SessionRoom(s, other);
    }
  }

  // ---------------------------------------------------------------- joining and leaving

  /** Room codes are case-insensitive: joining with a code and with its upper-case form is the same step. */
  lemma JoinIgnoresCase(s: State, sid: Sid, code: string, userName: Option<string>, now: Time)
    ensures JoinRoom(s, sid, Some(code), userName, now) == JoinRoom(s, sid, Some(Text.Upper(code)), userName, now)
  {
    Text.UpperIdempotent(code);
  }

  /** A created room is found by its code: anyone joining with it gets `room_joined`. */
  lemma CreatedRoomJoinable(s: State, sid: Sid, userName: Option<string>, roomName: Option<string>,
                            draws: seq<string>, now: Time, joiner: Sid, joinerName: Option<string>, later: Time)
    requires exists j | 0 <= j < |draws| :: RoomIdOf(draws[j]) !in s.rooms
    requires joiner in s.sessions
    ensures var created := CreateRoom(s, sid, userName, roomName, draws, now).state;
            var id := NewRoomId(draws, s.rooms);
            var joined := JoinRoom(created, joiner, Some(id), joinerName, later);
            joined.events[0].body.RoomJoined? && joined.events[0].body.roomId == id
            && joiner in joined.state.rooms[id].users
  {
    var uuid := draws[FreshIndex(draws, s.rooms, 0)];
    Text.UpperIdempotent(if |uuid| <= 6 then uuid else uuid[..6]);
  }

  /**
   * Joining another room does not leave the current one: the old room keeps
   * listing the session, which now names the new room. `get_rooms` goes on
   * counting it there until it disconnects.
   */
  lemma JoinLeavesStaleMember(s: State, sid: Sid, code: string, userName: Option<string>, now: Time)
    requires Consistent(s) && SessionRoom(s, sid).Some?
    requires code != [] && Text.Upper(code) in s.rooms && Text.Upper(code) != SessionRoom(s, sid).value
    ensures var r := JoinRoom(s, sid, Some(code), userName, now).state;
            var previous := SessionRoom(s, sid).value;
            && sid in r.rooms[previous].users
            && SessionRoom(r, sid) == Some(Text.Upper(code))
            && SessionRoom(r, sid).value != previous
  {
  }

  /**
   * Leaving right after joining gives the room back its users: the joiner
   * was in no room and not listed before.
   */
  lemma LeaveUndoesJoin(s: State, sid: Sid, code: string, userName: Option<string>, t1: Time, t2: Time)
    requires sid in s.sessions && SessionRoom(s, sid).None?
    requires code != [] && Text.Upper(code) in s.rooms && sid !in s.rooms[Text.Upper(code)].users
    ensures var r := LeaveRoom(JoinRoom(s, sid, Some(code), userName, t1).state, sid, t2).state;
            var id := Text.Upper(code);
            && r.rooms.Keys == s.rooms.Keys
            && r.rooms[id].users == s.rooms[id].users
            && (forall other | other in s.rooms && other != id :: r.rooms[other] == s.rooms[other])
            && SessionRoom(r, sid).None?
  {
    var j := JoinRoom(s, sid, Some(code), userName, t1).state;
    JoinRoomInto(s, sid, code, userName, t1);
    LeaveRoomFrom(j, sid, Text.Upper(code), t2);
    RoomsRestored(s, j, LeaveRoom(j, sid, t2).state, sid, Text.Upper(code));
  }

  /** Adding one listing and removing it again leaves the rooms as they were. */
  lemma RoomsRestored(s: State, j: State, r: State, sid: Sid, id: RoomId)
    requires id in s.rooms && sid !in s.rooms[id].users
    requires j.rooms.Keys == s.rooms.Keys && j.rooms[id].users - {sid} == s.rooms[id].users - {sid}
    requires forall other | other in s.rooms && other != id :: j.rooms[other] == s.rooms[other]
    requires r.rooms.Keys == j.rooms.Keys && r.rooms[id].users == j.rooms[id].users - {sid}
    requires forall other | other in j.rooms && other != id :: r.rooms[other] == j.rooms[other]
    ensures r.rooms.Keys == s.rooms.Keys && r.rooms[id].users == s.rooms[id].users
    ensures forall other | other in s.rooms && other != id :: r.rooms[other] == s.rooms[other]
  {
    assert s.rooms[id].users - {sid} == s.rooms[id].users;
  }

  /** Leaving right after joining also restores every channel, when the joiner was not subscribed before. */
  lemma LeaveUndoesJoinChannels(s: State, sid: Sid, code: string, userName: Option<string>, t1: Time, t2: Time)
    requires sid in s.sessions && SessionRoom(s, sid).None?
    requires code != [] && Text.Upper(code) in s.rooms && sid !in Channel(s.channels, Text.Upper(code))
    ensures var r := LeaveRoom(JoinRoom(s, sid, Some(code), userName, t1).state, sid, t2).state;
            forall c :: Channel(r.channels, c) == Channel(s.channels, c)
  {
    JoinRoomInto(s, sid, code, userName, t1);
    LeaveRoomFrom(JoinRoom(s, sid, Some(code), userName, t1).state, sid, Text.Upper(code), t2);
  }

  /** Joining a room one was not listed in adds exactly that listing and subscription. */
  lemma JoinRoomInto(s: State, sid: Sid, code: string, userName: Option<string>, now: Time)
    requires sid in s.sessions && code != [] && Text.Upper(code) in s.rooms
    ensures var j := JoinRoom(s, sid, Some(code), userName, now).state;
            var id := Text.Upper(code);
            && SessionRoom(j, sid) == Some(id) && j.rooms.Keys == s.rooms.Keys
            && sid in j.rooms[id].users && j.rooms[id].users - {sid} == s.rooms[id].users - {sid}
            && (forall other | other in s.rooms && other != id :: j.rooms[other] == s.rooms[other])
            && (forall c :: Channel(j.channels, c) == Channel(s.channels, c) + (if c == id then {sid} else {}))
  {
    var id := Text.Upper(code);
    var j := JoinRoom(s, sid, Some(code), userName, now).state;
    assert j.rooms[id].users == s.rooms[id].users[sid := j.rooms[id].users[sid]];
  }

  /** Leaving a room one is listed in removes exactly that listing and subscription. */
  lemma LeaveRoomFrom(j: State, sid: Sid, id: RoomId, now: Time)
    requires SessionRoom(j, sid) == Some(id) && id in j.rooms && sid in j.rooms[id].users
    ensures var r := LeaveRoom(j, sid, now).state;
            && r.rooms.Keys == j.rooms.Keys
            && r.rooms[id].users == j.rooms[id].users - {sid}
            && (forall other | other in j.rooms && other != id :: r.rooms[other] == j.rooms[other])
            && (forall c :: Channel(r.channels, c) == Channel(j.channels, c) - (if c == id then {sid} else {}))
            && SessionRoom(r, sid).None?
  {
  }

  // ---------------------------------------------------------------- relays

  /** An edit never echoes to its sender. */
  lemma EditsSkipSender(s: State, sid: Sid, key: HexKey, color: Color, line: Line, now: Time)
    ensures forall e | e in HexUpdate(s, sid, key, color, now).events :: sid !in e.to
    ensures forall e | e in LineAdd(s, sid, line, now).events :: sid !in e.to
    ensures forall e | e in HexErase(s, sid, key, now).events :: sid !in e.to
  {
  }

  /** Once another session has joined the editor's room, it receives the editor's colour changes. */
  lemma JoinerReceivesEdits(s: State, editor: Sid, joiner: Sid, code: string, joinerName: Option<string>, t1: Time,
                            key: HexKey, color: Color, t2: Time)
    requires editor != joiner && joiner in s.sessions
    requires ActiveRoom(s, editor) == Some(Text.Upper(code))
    ensures var j := JoinRoom(s, joiner, Some(code), joinerName, t1).state;
            var edit := HexUpdate(j, editor, key, color, t2);
            edit.events == [Event(HexUpdated(key, color, s.sessions[editor].userName), edit.events[0].to)]
            && joiner in edit.events[0].to
  {
    var j := JoinRoom(s, joiner, Some(code), joinerName, t1).state;
    assert ActiveRoom(j, editor) == Some(Text.Upper(code));
  }
}

=== FILE: store.dfy ===
/**
 * The repository layer over the SQLite tables, with every table a finite map
 * keyed by its primary key: `rooms` by room_id, `hexes` by the pair
 * (room_id, hex_key), `lines` by the global line_id and `units` by the global
 * unit_id. Each write runs inside `Schema.Transaction`; timestamps are the
 * `now` parameter.
 */
module Store {
  import opened Wrappers
  import opened Entities
  import opened Schema
  import Text

  type LineId = string
  type UnitId = string
  type Time = nat

  datatype RoomRow = RoomRow(name: string, owner: Option<string>, hasPassword: bool,
                             passwordHash: Option<string>, createdAt: Time, lastActivity: Time,
                             version: int)

  datatype HexRow = HexRow(fillColor: Color, updatedAt: Time, updatedBy: Option<string>)

  datatype LineRow = LineRow(roomId: RoomId, payload: Line, createdAt: Time, createdBy: Option<string>)

  datatype UnitRow = UnitRow(roomId: RoomId, name: string, color: Color, hexKey: HexKey,
                             createdAt: Time, createdBy: Option<string>,
                             movedAt: Option<Time>, movedBy: Option<string>)

  datatype Db = Db(rooms: map<RoomId, RoomRow>, hexes: map<(RoomId, HexKey), HexRow>,
                   lines: map<LineId, LineRow>, units: map<UnitId, UnitRow>)

  /** Sparse storage: no stored cell has the default colour. */
  predicate Sparse(db: Db) {
    forall p | p in db.hexes :: db.hexes[p].fillColor != Default
  }

  /** The colour a reader sees for a cell: its row's colour, or the default when there is no row. */
  function StoredColor(db: Db, roomId: RoomId, key: HexKey): Color {
    if (roomId, key) in db.hexes then db.hexes[(roomId, key)].fillColor else Default
  }

  // ---------------------------------------------------------------- rooms

  /** `create_room`: insert the room row with version 1; a taken room_id violates the key. */
  function CreateRoom(db: Db, roomId: RoomId, name: string, owner: Option<string>,
                      passwordHash: Option<string>, now: Time): (r: Outcome<Db>)
    ensures r.error.Some? <==> roomId in db.rooms
    ensures r.error.Some? ==> r.state == db
    ensures r.error.None? ==>
              && roomId in r.state.rooms
              && r.state.rooms - {roomId} == db.rooms
              && r.state.rooms[roomId].version == 1
              && r.state.rooms[roomId].name == name
              && r.state.rooms[roomId].owner == owner
              && r.state.rooms[roomId].passwordHash == passwordHash
              && (r.state.rooms[roomId].hasPassword <==> Text.Truthy(passwordHash))
              && r.state.rooms[roomId].createdAt == now == r.state.rooms[roomId].lastActivity
    ensures r.state.hexes == db.hexes && r.state.lines == db.lines && r.state.units == db.units
  {
    var row := RoomRow(name, owner, Text.Truthy(passwordHash), passwordHash, now, now, 1);
    Transaction(db, if roomId in db.rooms then Raised(db, IntegrityError("rooms", roomId))
                    else Completed(db.(rooms := db.rooms[roomId := row])))
  }

  datatype Versioned = Versioned(db: Db, version: int)

  /** `increment_room_version`: add one to the stored version and read it back (1 for an unknown room). */
  function IncrementRoomVersion(db: Db, roomId: RoomId): (r: Versioned)
    ensures roomId in db.rooms ==>
              && roomId in r.db.rooms
              && r.version == db.rooms[roomId].version + 1
              && r.db.rooms[roomId] == db.rooms[roomId].(version := r.version)
              && r.db.rooms - {roomId} == db.rooms - {roomId}
    ensures roomId !in db.rooms ==> r.db == db && r.version == 1
    ensures r.db.hexes == db.hexes && r.db.lines == db.lines && r.db.units == db.units
  {
    if roomId in db.rooms then
      var row := db.rooms[roomId];
      var bumped := row.(version := row.version + 1);
      Versioned(db.(rooms := db.rooms[roomId := bumped]), bumped.version)
    else Versioned(db, 1)
  }

  /** `n` consecutive accepted mutations of one room, each followed by its version bump. */
  function IncrementTimes(db: Db, roomId: RoomId, n: nat): Db
    decreases n
  {
    if n == 0 then db else IncrementTimes(IncrementRoomVersion(db, roomId).db, roomId, n - 1)
  }

  /** The version counter moves by exactly one per increment: never skipped, never decremented. */
  lemma {:induction false} VersionCountsIncrements(db: Db, roomId: RoomId, n: nat)
    requires roomId in db.rooms
    ensures roomId in IncrementTimes(db, roomId, n).rooms
    ensures IncrementTimes(db, roomId, n).rooms[roomId].version == db.rooms[roomId].version + n
    ensures IncrementTimes(db, roomId, n).rooms - {roomId} == db.rooms - {roomId}
    decreases n
  {
    if n > 0 {
      VersionCountsIncrements(IncrementRoomVersion(db, roomId).db, roomId, n - 1);
    }
  }

  /** `delete_room` as written: only the room row goes, because foreign keys are never enabled. */
  function DeleteRoom(db: Db, roomId: RoomId): (r: Db)
    ensures roomId !in r.rooms && r.rooms == db.rooms - {roomId}
    ensures r.hexes == db.hexes && r.lines == db.lines && r.units == db.units
  {
    db.(rooms := db.rooms - {roomId})
  }

  function HexesOutside(db: Db, roomId: RoomId): map<(RoomId, HexKey), HexRow> {
    map p | p in db.hexes && p.0 != roomId :: db.hexes[p]
  }

  function LinesOutside(db: Db, roomId: RoomId): map<LineId, LineRow> {
    map id | id in db.lines && db.lines[id].roomId != roomId :: db.lines[id]
  }

  function UnitsOutside(db: Db, roomId: RoomId): map<UnitId, UnitRow> {
    map id | id in db.units && db.units[id].roomId != roomId :: db.units[id]
  }

  /** `delete_room` as its comment and the schema's `ON DELETE CASCADE` intend: the room and every row of it. */
  function DeleteRoomCascade(db: Db, roomId: RoomId): (r: Db)
    ensures r.rooms == db.rooms - {roomId}
    ensures forall p | p in r.hexes :: p.0 != roomId
    ensures forall id | id in r.lines :: r.lines[id].roomId != roomId
    ensures forall id | id in r.units :: r.units[id].roomId != roomId
    ensures r.hexes == HexesOutside(db, roomId) && r.lines == LinesOutside(db, roomId)
              && r.units == UnitsOutside(db, roomId)
  {
    Db(db.rooms - {roomId}, HexesOutside(db, roomId), LinesOutside(db, roomId), UnitsOutside(db, roomId))
  }

  // ---------------------------------------------------------------- hexes

  /** `update_hex`: the default colour deletes the row; any other colour upserts it. */
  function UpdateHex(db: Db, roomId: RoomId, key: HexKey, color: Color, actor: Option<string>, now: Time): (r: Db)
    ensures color == Default ==> (roomId, key) !in r.hexes
    ensures color != Default ==> (roomId, key) in r.hexes && r.hexes[(roomId, key)].fillColor == color
    ensures StoredColor(r, roomId, key) == color
    ensures r.hexes - {(roomId, key)} == db.hexes - {(roomId, key)}
    ensures r.rooms == db.rooms && r.lines == db.lines && r.units == db.units
    ensures Sparse(db) ==> Sparse(r)
  {
    if color == Default then db.(hexes := db.hexes - {(roomId, key)})
    else db.(hexes := db.hexes[(roomId, key) := HexRow(color, now, actor)])
  }

  /** `erase_hex`: delete that one row; lines, units and other cells are untouched. */
  function EraseHex(db: Db, roomId: RoomId, key: HexKey): (r: Db)
    ensures (roomId, key) !in r.hexes && StoredColor(r, roomId, key) == Default
    ensures r.hexes - {(roomId, key)} == db.hexes - {(roomId, key)}
    ensures r.rooms == db.rooms && r.lines == db.lines && r.units == db.units
    ensures Sparse(db) ==> Sparse(r)
  {
    db.(hexes := db.hexes - {(roomId, key)})
  }

  /** Erasing a cell after painting it is erasing it: the paint leaves no trace. */
  lemma EraseAfterUpdate(db: Db, roomId: RoomId, key: HexKey, color: Color, actor: Option<string>, now: Time)
    ensures EraseHex(UpdateHex(db, roomId, key, color, actor, now), roomId, key) == EraseHex(db, roomId, key)
  {
  }

  // ---------------------------------------------------------------- lines

  /** `add_line`: insert under `lineId`; an id already used anywhere, by any room, violates the key. */
  function AddLine(db: Db, roomId: RoomId, lineId: LineId, line: Line, actor: Option<string>, now: Time): (r: Outcome<Db>)
    ensures r.error.Some? <==> lineId in db.lines
    ensures r.error.Some? ==> r.state == db
    ensures r.error.None? ==>
              && lineId in r.state.lines
              && r.state.lines[lineId] == LineRow(roomId, line, now, actor)
              && r.state.lines - {lineId} == db.lines
    ensures r.state.rooms == db.rooms && r.state.hexes == db.hexes && r.state.units == db.units
  {
    Transaction(db, if lineId in db.lines then Raised(db, IntegrityError("lines", lineId))
                    else Completed(db.(lines := db.lines[lineId := LineRow(roomId, line, now, actor)])))
  }

  /** The rows `delete_lines_by_hex(roomId, key)` selects: that room's lines with an endpoint on `key`. */
  predicate LineOnCell(row: LineRow, roomId: RoomId, key: HexKey) {
    row.roomId == roomId && EndsAt(row.payload, key)
  }

  /** `delete_lines_by_hex`: drop exactly the room's lines whose start or end key is `key`. */
  function DeleteLinesByHex(db: Db, roomId: RoomId, key: HexKey): (r: Db)
    ensures forall id :: id in r.lines <==> id in db.lines && !LineOnCell(db.lines[id], roomId, key)
    ensures forall id | id in r.lines :: r.lines[id] == db.lines[id]
    ensures LinesOutside(r, roomId) == LinesOutside(db, roomId)
    ensures r.rooms == db.rooms && r.hexes == db.hexes && r.units == db.units
  {
    var r := db.(lines := map id | id in db.lines && !LineOnCell(db.lines[id], roomId, key) :: db.lines[id]);
    assert LinesOutside(r, roomId) == LinesOutside(db, roomId);
    r
  }

  // ---------------------------------------------------------------- units

  /** A unit as a client or an import file supplies it; absent fields are None. */
  datatype UnitInput = UnitInput(id: Option<string>, unitId: Option<string>, name: Option<string>,
                                 color: Option<Color>, hexKey: Option<HexKey>)

  /** The unit carries the three fields the INSERT reads with `unit['...']`. */
  predicate HasUnitFields(u: UnitInput) {
    u.name.Some? && u.color.Some? && u.hexKey.Some?
  }

  /** The first field whose lookup raises, in the order the INSERT's arguments are evaluated. */
  function MissingUnitField(u: UnitInput): string
    requires !HasUnitFields(u)
  {
    if u.name.None? then "name" else if u.color.None? then "color" else "hex_key"
  }

  function NewUnitRow(roomId: RoomId, u: UnitInput, actor: Option<string>, now: Time): UnitRow
    requires HasUnitFields(u)
  {
    UnitRow(roomId, u.name.value, u.color.value, u.hexKey.value, now, actor, None, None)
  }

  /** `add_unit`: insert under `unitId`; a missing field or an id used by any room raises. */
  function AddUnit(db: Db, roomId: RoomId, unitId: UnitId, data: UnitInput, actor: Option<string>, now: Time): (r: Outcome<Db>)
    ensures r.error.None? <==> HasUnitFields(data) && unitId !in db.units
    ensures r.error.Some? ==> r.state == db
    ensures !HasUnitFields(data) ==> r.error == Some(MissingField(MissingUnitField(data)))
    ensures r.error.None? ==>
              && unitId in r.state.units
              && r.state.units[unitId].roomId == roomId
              && r.state.units[unitId].name == data.name.value
              && r.state.units[unitId].color == data.color.value
              && r.state.units[unitId].hexKey == data.hexKey.value
              && r.state.units[unitId].movedBy.None?
              && r.state.units - {unitId} == db.units
    ensures r.state.rooms == db.rooms && r.state.hexes == db.hexes && r.state.lines == db.lines
  {
    Transaction(db,
      if !HasUnitFields(data) then Raised(db, MissingField(MissingUnitField(data)))
      else if unitId in db.units then Raised(db, IntegrityError("units", unitId))
      else Completed(db.(units := db.units[unitId := NewUnitRow(roomId, data, actor, now)])))
  }

  /** `move_unit`: set hex_key, moved_at and moved_by of the (room, unit) row, if there is one. */
  function MoveUnit(db: Db, roomId: RoomId, unitId: UnitId, newKey: HexKey, actor: Option<string>, now: Time): (r: Db)
    ensures r.units.Keys == db.units.Keys
    ensures r.units - {unitId} == db.units - {unitId}
    ensures unitId in db.units && db.units[unitId].roomId == roomId ==>
              r.units[unitId] == db.units[unitId].(hexKey := newKey, movedAt := Some(now), movedBy := actor)
    ensures !(unitId in db.units && db.units[unitId].roomId == roomId) ==> r == db
    ensures r.rooms == db.rooms && r.hexes == db.hexes && r.lines == db.lines
  {
    if unitId in db.units && db.units[unitId].roomId == roomId then
      var row := db.units[unitId];
      db.(units := db.units[unitId := row.(hexKey := newKey, movedAt := Some(now), movedBy := actor)])
    else db
  }

  /** `delete_unit`: remove the (room, unit) row, if there is one. */
  function DeleteUnit(db: Db, roomId: RoomId, unitId: UnitId): (r: Db)
    ensures unitId !in r.units || (unitId in db.units && db.units[unitId].roomId != roomId)
    ensures r.units - {unitId} == db.units - {unitId}
    ensures unitId in r.units ==> r == db
    ensures r.rooms == db.rooms && r.hexes == db.hexes && r.lines == db.lines
  {
    if unitId in db.units && db.units[unitId].roomId == roomId then db.(units := db.units - {unitId})
    else db
  }

  /** Deleting a unit right after adding it restores the database exactly. */
  lemma DeleteUndoesAdd(db: Db, roomId: RoomId, unitId: UnitId, data: UnitInput, actor: Option<string>, now: Time)
    requires AddUnit(db, roomId, unitId, data, actor, now).error.None?
    ensures DeleteUnit(AddUnit(db, roomId, unitId, data, actor, now).state, roomId, unitId) == db
  {
    var added := AddUnit(db, roomId, unitId, data, actor, now).state;
    assert added.units - {unitId} == db.units;
  }

  /** `delete_units_by_hex`: drop exactly the room's units standing on `key`. */
  function DeleteUnitsByHex(db: Db, roomId: RoomId, key: HexKey): (r: Db)
    ensures forall id :: id in r.units <==> id in db.units && !(db.units[id].roomId == roomId && db.units[id].hexKey == key)
    ensures forall id | id in r.units :: r.units[id] == db.units[id]
    ensures r.rooms == db.rooms && r.hexes == db.hexes && r.lines == db.lines
  {
    db.(units := map id | id in db.units && !(db.units[id].roomId == roomId && db.units[id].hexKey == key) :: db.units[id])
  }

  // ---------------------------------------------------------------- bulk import

  /** The `fillColor` field of one imported `hex_data` entry: absent, JSON null, or a colour. */
  datatype FillColor = Unset | Null | Given(color: Color)

  /** One entry of the imported `hex_data`. */
  datatype HexInfo = HexInfo(fillColor: FillColor)

  /**
   * No entry has a null `fillColor`. `hex_info.get('fillColor', 'lightgray')`
   * yields None for one, None differs from 'lightgray', and inserting it
   * violates the NOT NULL `fill_color` column.
   */
  predicate NoNullFills(hexData: map<HexKey, HexInfo>) {
    forall k | k in hexData :: !hexData[k].fillColor.Null?
  }

  /** The colour an entry stands for: the given one, or the default when the field is absent. */
  function ImportedColor(h: HexInfo): (c: Color)
    requires !h.fillColor.Null?
    ensures h.fillColor.Unset? ==> c == Default
    ensures h.fillColor.Given? ==> c == h.fillColor.color
  {
    if h.fillColor.Given? then h.fillColor.color else Default
  }

  /** The prefix of every id the import synthesises for a line of `roomId`. */
  function LinePrefix(roomId: RoomId): string {
    roomId + "_line_"
  }

  /** The id an imported line is stored under: its own truthy `id`, else `{room_id}_line_{idx}`. */
  function LineKey(roomId: RoomId, line: Line, idx: nat): (k: LineId)
    ensures Text.Truthy(line.id) ==> k == line.id.value
    ensures !Text.Truthy(line.id) ==>
              && |LinePrefix(roomId)| < |k| && k[..|LinePrefix(roomId)|] == LinePrefix(roomId)
              && Text.AllDigits(k[|LinePrefix(roomId)|..]) && Text.DigitsValue(k[|LinePrefix(roomId)|..]) == idx
  {
    if Text.Truthy(line.id) then line.id.value
    else
      var k := LinePrefix(roomId) + Text.NatToString(idx);
      assert k[|LinePrefix(roomId)|..] == Text.NatToString(idx);
      k
  }

  /** Lines imported without a truthy id never share a synthesised id. */
  lemma SyntheticLineKeysDistinct(roomId: RoomId, a: Line, i: nat, b: Line, j: nat)
    requires !Text.Truthy(a.id) && !Text.Truthy(b.id) && i != j
    ensures LineKey(roomId, a, i) != LineKey(roomId, b, j)
  {
  }

  function LineKeys(roomId: RoomId, lines: seq<Line>, idx: nat): (ks: seq<LineId>)
    ensures |ks| == |lines|
    ensures forall i | 0 <= i < |lines| :: ks[i] == LineKey(roomId, lines[i], idx + i)
  {
    seq(|lines|, i requires 0 <= i < |lines| => LineKey(roomId, lines[i], idx + i))
  }

  predicate Distinct<T(==)>(s: seq<T>) {
    forall i, j | 0 <= i < j < |s| :: s[i] != s[j]
  }

  lemma DistinctCons(s: seq<string>)
    requires |s| > 0
    ensures Distinct(s) <==> s[0] !in s[1..] && Distinct(s[1..])
  {
    if s[0] !in s[1..] && Distinct(s[1..]) {
      forall i, j | 0 <= i < j < |s|
        ensures s[i] != s[j]
      {
        if i > 0 {
          assert s[i] == s[1..][i - 1] && s[j] == s[1..][j - 1];
        } else {
          assert s[j] == s[1..][j - 1];
        }
      }
    }
  }

  /**
   * The line-insert loop of `replace_room_state`: insert `lines[i]` under
   * `keys[i]`, in order, stopping at the first id that is already taken.
   */
  function InsertLines(d: Db, roomId: RoomId, keys: seq<LineId>, lines: seq<Line>, actor: Option<string>, now: Time): (r: Attempt<Db>)
    requires |keys| == |lines|
    ensures r.Written().rooms == d.rooms && r.Written().hexes == d.hexes && r.Written().units == d.units
    ensures r.Raised? ==> r.error.IntegrityError? && r.error.table == "lines" && r.error.key in keys && r.error.key in r.partial.lines
    decreases |lines|
  {
    if lines == [] then Completed(d)
    else if keys[0] in d.lines then Raised(d, IntegrityError("lines", keys[0]))
    else InsertLines(d.(lines := d.lines[keys[0] := LineRow(roomId, lines[0], now, actor)]), roomId, keys[1..], lines[1..], actor, now)
  }

  /** The line inserts succeed exactly when the ids are pairwise distinct and none is taken yet. */
  lemma {:induction false} InsertLinesAccepts(d: Db, roomId: RoomId, keys: seq<LineId>, lines: seq<Line>, actor: Option<string>, now: Time)
    requires |keys| == |lines|
    ensures InsertLines(d, roomId, keys, lines, actor, now).Completed?
            <==> Distinct(keys) && forall id | id in keys :: id !in d.lines
    decreases |lines|
  {
    if lines != [] {
      var id := keys[0];
      assert forall x :: x in keys <==> x == id || x in keys[1..];
      DistinctCons(keys);
      if id !in d.lines {
        var next := d.(lines := d.lines[id := LineRow(roomId, lines[0], now, actor)]);
        InsertLinesAccepts(next, roomId, keys[1..], lines[1..], actor, now);
      }
    }
  }

  /** Completed line inserts keep every existing row and add `lines[i]` under `keys[i]`, nothing else. */
  lemma {:induction false} InsertLinesRows(d: Db, roomId: RoomId, keys: seq<LineId>, lines: seq<Line>, actor: Option<string>, now: Time)
    requires |keys| == |lines|
    requires InsertLines(d, roomId, keys, lines, actor, now).Completed?
    ensures var s := InsertLines(d, roomId, keys, lines, actor, now).state;
            && (forall id | id in d.lines :: id in s.lines && s.lines[id] == d.lines[id])
            && (forall i | 0 <= i < |lines| :: keys[i] in s.lines && s.lines[keys[i]] == LineRow(roomId, lines[i], now, actor))
            && (forall id | id in s.lines :: id in d.lines || id in keys)
    decreases |lines|
  {
    if lines != [] {
      var next := d.(lines := d.lines[keys[0] := LineRow(roomId, lines[0], now, actor)]);
      InsertLinesRows(next, roomId, keys[1..], lines[1..], actor, now);
      assert forall i | 0 < i < |lines| :: lines[i] == lines[1..][i - 1] && keys[i] == keys[1..][i - 1];
      assert forall x :: x in keys <==> x == keys[0] || x in keys[1..];
    }
  }

  /** The id an imported unit is stored under: its truthy `id`, else its truthy `unit_id`, else none (skipped). */
  function UnitKey(u: UnitInput): (k: Option<UnitId>)
    ensures k.Some? <==> Text.Truthy(u.id) || Text.Truthy(u.unitId)
    ensures k.Some? ==> k.value != "" && (k == u.id || k == u.unitId)
    ensures Text.Truthy(u.id) ==> k == u.id
  {
    if Text.Truthy(u.id) then u.id else if Text.Truthy(u.unitId) then u.unitId else None
  }

  /** The imported units that have an id, in order: the ones the loop does not skip. */
  function Keyed(units: seq<UnitInput>): (kept: seq<UnitInput>)
    ensures forall u :: u in kept <==> u in units && UnitKey(u).Some?
  {
    if units == [] then []
    else (if UnitKey(units[0]).Some? then [units[0]] else []) + Keyed(units[1..])
  }

  /** The ids the kept units are stored under, position by position. */
  function UnitKeys(kept: seq<UnitInput>): (ks: seq<UnitId>)
    requires forall u | u in kept :: UnitKey(u).Some?
    ensures |ks| == |kept|
    ensures forall i | 0 <= i < |kept| :: ks[i] == UnitKey(kept[i]).value
  {
    seq(|kept|, i requires 0 <= i < |kept| => UnitKey(kept[i]).value)
  }

  /**
   * The unit-insert loop of `replace_room_state` over the units it does not
   * skip, `kept[i]` going under `keys[i]`: each INSERT first reads name,
   * color and hex_key, then meets the primary key.
   */
  function InsertUnits(d: Db, roomId: RoomId, keys: seq<UnitId>, kept: seq<UnitInput>, actor: Option<string>, now: Time): (r: Attempt<Db>)
    requires |keys| == |kept|
    ensures r.Written().rooms == d.rooms && r.Written().hexes == d.hexes && r.Written().lines == d.lines
    ensures r.Raised? ==> (r.error.MissingField? && exists u | u in kept :: !HasUnitFields(u))
                          || (r.error.IntegrityError? && r.error.table == "units" && r.error.key in keys)
    decreases |kept|
  {
    if kept == [] then Completed(d)
    else if !HasUnitFields(kept[0]) then Raised(d, MissingField(MissingUnitField(kept[0])))
    else if keys[0] in d.units then Raised(d, IntegrityError("units", keys[0]))
    else InsertUnits(d.(units := d.units[keys[0] := NewUnitRow(roomId, kept[0], actor, now)]), roomId, keys[1..], kept[1..], actor, now)
  }

  /** The unit inserts succeed exactly when every unit has its fields and the ids are pairwise distinct and unused. */
  lemma {:induction false} InsertUnitsAccepts(d: Db, roomId: RoomId, keys: seq<UnitId>, kept: seq<UnitInput>, actor: Option<string>, now: Time)
    requires |keys| == |kept|
    ensures InsertUnits(d, roomId, keys, kept, actor, now).Completed?
            <==> (forall u | u in kept :: HasUnitFields(u)) && Distinct(keys) && forall id | id in keys :: id !in d.units
    decreases |kept|
  {
    if kept != [] {
      var id := keys[0];
      assert forall x :: x in keys <==> x == id || x in keys[1..];
      assert forall v :: v in kept <==> v == kept[0] || v in kept[1..];
      DistinctCons(keys);
      if HasUnitFields(kept[0]) && id !in d.units {
        var next := d.(units := d.units[id := NewUnitRow(roomId, kept[0], actor, now)]);
        InsertUnitsAccepts(next, roomId, keys[1..], kept[1..], actor, now);
      }
    }
  }

  /** Completed unit inserts keep every existing row and add `kept[i]` under `keys[i]`, nothing else. */
  lemma {:induction false} InsertUnitsRows(d: Db, roomId: RoomId, keys: seq<UnitId>, kept: seq<UnitInput>, actor: Option<string>, now: Time)
    requires |keys| == |kept|
    requires InsertUnits(d, roomId, keys, kept, actor, now).Completed?
    ensures var s := InsertUnits(d, roomId, keys, kept, actor, now).state;
            && (forall id | id in d.units :: id in s.units && s.units[id] == d.units[id])
            && (forall i | 0 <= i < |kept| :: keys[i] in s.units && HasUnitFields(kept[i]) && s.units[keys[i]] == NewUnitRow(roomId, kept[i], actor, now))
            && (forall id | id in s.units :: id in d.units || id in keys)
    decreases |kept|
  {
    if kept != [] {
      var next := d.(units := d.units[keys[0] := NewUnitRow(roomId, kept[0], actor, now)]);
      InsertUnitsRows(next, roomId, keys[1..], kept[1..], actor, now);
      assert forall i | 0 < i < |kept| :: kept[i] == kept[1..][i - 1] && keys[i] == keys[1..][i - 1];
      assert forall x :: x in keys <==> x == keys[0] || x in keys[1..];
    }
  }

  /** The hex rows an import writes: one per entry whose colour is not the default. */
  function ImportedHexes(roomId: RoomId, hexData: map<HexKey, HexInfo>, actor: Option<string>, now: Time): (m: map<(RoomId, HexKey), HexRow>)
    requires NoNullFills(hexData)
    ensures forall p | p in m :: p.0 == roomId && p.1 in hexData && ImportedColor(hexData[p.1]) != Default
                                 && m[p].fillColor == ImportedColor(hexData[p.1])
    ensures forall k | k in hexData && ImportedColor(hexData[k]) != Default :: (roomId, k) in m
  {
    map k | k in hexData && ImportedColor(hexData[k]) != Default :: (roomId, k) := HexRow(ImportedColor(hexData[k]), now, actor)
  }

  /** The hex table after the room's DELETE and the import's hex INSERTs. */
  function RepaintedHexes(db: Db, roomId: RoomId, hexData: map<HexKey, HexInfo>, actor: Option<string>, now: Time): map<(RoomId, HexKey), HexRow>
    requires NoNullFills(hexData)
  {
    HexesOutside(db, roomId) + ImportedHexes(roomId, hexData, actor, now)
  }

  /** The database after the three DELETEs that open `replace_room_state`. */
  function Cleared(db: Db, roomId: RoomId): Db {
    Db(db.rooms, HexesOutside(db, roomId), LinesOutside(db, roomId), UnitsOutside(db, roomId))
  }

  /** The database after the three DELETEs and the hex INSERTs. */
  function Painted(db: Db, roomId: RoomId, hexData: map<HexKey, HexInfo>, actor: Option<string>, now: Time): Db
    requires NoNullFills(hexData)
  {
    Db(db.rooms, RepaintedHexes(db, roomId, hexData, actor, now), LinesOutside(db, roomId), UnitsOutside(db, roomId))
  }

  /**
   * The body of `replace_room_state`'s transaction: clear the room, then
   * insert hexes, lines, units. A null colour raises in the hex inserts.
   */
  function ReplaceBody(db: Db, roomId: RoomId, hexData: map<HexKey, HexInfo>, lines: seq<Line>,
                       units: seq<UnitInput>, actor: Option<string>, now: Time): (r: Attempt<Db>)
    ensures r.Written().rooms == db.rooms
    ensures !NoNullFills(hexData) ==> r.Raised? && r.error == IntegrityError("hexes", "fill_color")
  {
    if !NoNullFills(hexData) then Raised(Cleared(db, roomId), IntegrityError("hexes", "fill_color"))
    else
      var painted := Painted(db, roomId, hexData, actor, now);
      match InsertLines(painted, roomId, LineKeys(roomId, lines, 0), lines, actor, now)
      case Raised(p, e) => Raised(p, e)
      case Completed(withLines) => InsertUnits(withLines, roomId, UnitKeys(Keyed(units)), Keyed(units), actor, now)
  }

  /**
   * The import goes through: no cell has a null colour, no id clashes with
   * another room's rows or with itself, and no unit lacks a field.
   */
  predicate ReplaceAccepted(db: Db, roomId: RoomId, hexData: map<HexKey, HexInfo>, lines: seq<Line>, units: seq<UnitInput>) {
    && NoNullFills(hexData)
    && Distinct(LineKeys(roomId, lines, 0))
    && (forall id | id in LineKeys(roomId, lines, 0) :: id !in LinesOutside(db, roomId))
    && (forall u | u in Keyed(units) :: HasUnitFields(u))
    && Distinct(UnitKeys(Keyed(units)))
    && (forall id | id in UnitKeys(Keyed(units)) :: id !in UnitsOutside(db, roomId))
  }

  /** The body of `replace_room_state` completes exactly when the import is accepted. */
  lemma ReplaceBodySpec(db: Db, roomId: RoomId, hexData: map<HexKey, HexInfo>, lines: seq<Line>,
                        units: seq<UnitInput>, actor: Option<string>, now: Time)
    ensures ReplaceBody(db, roomId, hexData, lines, units, actor, now).Completed? <==> ReplaceAccepted(db, roomId, hexData, lines, units)
  {
    if !NoNullFills(hexData) {
      return;
    }
    var painted := Painted(db, roomId, hexData, actor, now);
    var keys := LineKeys(roomId, lines, 0);
    InsertLinesAccepts(painted, roomId, keys, lines, actor, now);
    var withLines := InsertLines(painted, roomId, keys, lines, actor, now);
    if withLines.Completed? {
      InsertUnitsAccepts(withLines.state, roomId, UnitKeys(Keyed(units)), Keyed(units), actor, now);
      assert withLines.state.units == UnitsOutside(db, roomId);
    }
  }

  /** `replace_room_state`: swap the room's hexes, lines and units for the imported ones, all or nothing. */
  function ReplaceRoomState(db: Db, roomId: RoomId, hexData: map<HexKey, HexInfo>, lines: seq<Line>,
                            units: seq<UnitInput>, actor: Option<string>, now: Time): (r: Outcome<Db>)
    ensures r.error.None? <==> ReplaceBody(db, roomId, hexData, lines, units, actor, now).Completed?
    ensures r.error.Some? ==> r.state == db
    ensures r.state.rooms == db.rooms
  {
    Transaction(db, ReplaceBody(db, roomId, hexData, lines, units, actor, now))
  }

  /** The import is rejected, and the database left as it was, exactly when an id clashes or a unit lacks a field. */
  lemma ReplaceRoomStateAccepts(db: Db, roomId: RoomId, hexData: map<HexKey, HexInfo>, lines: seq<Line>,
                                units: seq<UnitInput>, actor: Option<string>, now: Time)
    ensures var r := ReplaceRoomState(db, roomId, hexData, lines, units, actor, now);
            && (r.error.None? <==> ReplaceAccepted(db, roomId, hexData, lines, units))
            && (!ReplaceAccepted(db, roomId, hexData, lines, units) ==> r.state == db)
  {
    ReplaceBodySpec(db, roomId, hexData, lines, units, actor, now);
  }

  /** In the repainted hex table, the room's cells carry the imported colours and no others. */
  lemma RepaintedColors(db: Db, roomId: RoomId, hexData: map<HexKey, HexInfo>, actor: Option<string>, now: Time, s: Db)
    requires NoNullFills(hexData)
    requires s.hexes == RepaintedHexes(db, roomId, hexData, actor, now)
    ensures forall k :: StoredColor(s, roomId, k) == if k in hexData then ImportedColor(hexData[k]) else Default
  {
    forall k ensures StoredColor(s, roomId, k) == if k in hexData then ImportedColor(hexData[k]) else Default {
      assert (roomId, k) !in HexesOutside(db, roomId);
    }
  }

  /** The repainted hex table keeps every other room's cells. */
  lemma RepaintedElsewhere(db: Db, roomId: RoomId, hexData: map<HexKey, HexInfo>, actor: Option<string>, now: Time, s: Db)
    requires NoNullFills(hexData)
    requires s.hexes == RepaintedHexes(db, roomId, hexData, actor, now)
    ensures forall r, k | r != roomId :: StoredColor(s, r, k) == StoredColor(db, r, k)
  {
    forall r, k | r != roomId ensures StoredColor(s, r, k) == StoredColor(db, r, k) {
      assert (r, k) !in ImportedHexes(roomId, hexData, actor, now);
      assert (r, k) in db.hexes ==> (r, k) in HexesOutside(db, roomId);
    }
  }

  /** The repainted hex table holds no default-coloured row when the old one held none. */
  lemma RepaintedSparse(db: Db, roomId: RoomId, hexData: map<HexKey, HexInfo>, actor: Option<string>, now: Time, s: Db)
    requires NoNullFills(hexData)
    requires s.hexes == RepaintedHexes(db, roomId, hexData, actor, now)
    requires Sparse(db)
    ensures Sparse(s)
  {
    forall p | p in s.hexes ensures s.hexes[p].fillColor != Default {
      if p !in ImportedHexes(roomId, hexData, actor, now) {
        assert s.hexes[p] == db.hexes[p];
      }
    }
  }

  /** A committed import writes the cells of the painted room. */
  lemma ReplaceCommittedHexes(db: Db, roomId: RoomId, hexData: map<HexKey, HexInfo>, lines: seq<Line>,
                              units: seq<UnitInput>, actor: Option<string>, now: Time)
    requires ReplaceRoomState(db, roomId, hexData, lines, units, actor, now).error.None?
    ensures ReplaceRoomState(db, roomId, hexData, lines, units, actor, now).state.hexes
            == RepaintedHexes(db, roomId, hexData, actor, now)
  {
  }

  /** An accepted import leaves the room with exactly the imported non-default cells, and other rooms' hexes alone. */
  lemma ReplaceRoomStateHexes(db: Db, roomId: RoomId, hexData: map<HexKey, HexInfo>, lines: seq<Line>,
                              units: seq<UnitInput>, actor: Option<string>, now: Time)
    requires ReplaceRoomState(db, roomId, hexData, lines, units, actor, now).error.None?
    ensures var s := ReplaceRoomState(db, roomId, hexData, lines, units, actor, now).state;
            && NoNullFills(hexData)
            && (forall k :: StoredColor(s, roomId, k) == if k in hexData then ImportedColor(hexData[k]) else Default)
            && (forall r, k | r != roomId :: StoredColor(s, r, k) == StoredColor(db, r, k))
            && (Sparse(db) ==> Sparse(s))
  {
    ReplaceCommittedHexes(db, roomId, hexData, lines, units, actor, now);
    var s := ReplaceRoomState(db, roomId, hexData, lines, units, actor, now).state;
    RepaintedColors(db, roomId, hexData, actor, now, s);
    RepaintedElsewhere(db, roomId, hexData, actor, now, s);
    if Sparse(db) {
      RepaintedSparse(db, roomId, hexData, actor, now, s);
    }
  }

  /** A committed import holds the lines the line inserts wrote on the painted room. */
  lemma ReplaceCommittedLines(db: Db, roomId: RoomId, hexData: map<HexKey, HexInfo>, lines: seq<Line>,
                              units: seq<UnitInput>, actor: Option<string>, now: Time)
    requires ReplaceRoomState(db, roomId, hexData, lines, units, actor, now).error.None?
    ensures var withLines := InsertLines(Painted(db, roomId, hexData, actor, now), roomId, LineKeys(roomId, lines, 0), lines, actor, now);
            && withLines.Completed?
            && ReplaceRoomState(db, roomId, hexData, lines, units, actor, now).state.lines == withLines.state.lines
  {
  }

  /** Any database holding the lines of completed inserts has the room's new lines under their keys and the other rooms' lines unchanged. */
  lemma InsertedLines(d: Db, roomId: RoomId, keys: seq<LineId>, lines: seq<Line>, actor: Option<string>, now: Time, s: Db)
    requires |keys| == |lines|
    requires InsertLines(d, roomId, keys, lines, actor, now).Completed?
    requires s.lines == InsertLines(d, roomId, keys, lines, actor, now).state.lines
    requires LinesOutside(d, roomId) == d.lines
    ensures forall id :: id in s.lines && s.lines[id].roomId == roomId <==> id in keys
    ensures forall i | 0 <= i < |lines| :: s.lines[keys[i]].payload == lines[i]
    ensures LinesOutside(s, roomId) == d.lines
  {
    InsertLinesRows(d, roomId, keys, lines, actor, now);
    forall id | id in keys ensures id in s.lines && s.lines[id].roomId == roomId {
      var i :| 0 <= i < |keys| && keys[i] == id;
    }
    assert forall id | id in d.lines :: d.lines[id].roomId != roomId;
    assert LinesOutside(s, roomId) == LinesOutside(d, roomId);
  }

  /** An accepted import stores every imported line, under its id or its synthesised id, and keeps other rooms' lines. */
  lemma ReplaceRoomStateLines(db: Db, roomId: RoomId, hexData: map<HexKey, HexInfo>, lines: seq<Line>,
                              units: seq<UnitInput>, actor: Option<string>, now: Time)
    requires ReplaceRoomState(db, roomId, hexData, lines, units, actor, now).error.None?
    ensures var s := ReplaceRoomState(db, roomId, hexData, lines, units, actor, now).state;
            && (forall id :: id in s.lines && s.lines[id].roomId == roomId <==> id in LineKeys(roomId, lines, 0))
            && (forall i | 0 <= i < |lines| :: s.lines[LineKey(roomId, lines[i], i)].payload == lines[i])
            && LinesOutside(s, roomId) == LinesOutside(db, roomId)
  {
    ReplaceCommittedLines(db, roomId, hexData, lines, units, actor, now);
    var painted := Painted(db, roomId, hexData, actor, now);
    assert LinesOutside(painted, roomId) == painted.lines;
    InsertedLines(painted, roomId, LineKeys(roomId, lines, 0), lines, actor, now,
                  ReplaceRoomState(db, roomId, hexData, lines, units, actor, now).state);
  }

  /** A committed import holds the units the unit inserts wrote after the lines. */
  lemma ReplaceCommittedUnits(db: Db, roomId: RoomId, hexData: map<HexKey, HexInfo>, lines: seq<Line>,
                              units: seq<UnitInput>, actor: Option<string>, now: Time)
    requires ReplaceRoomState(db, roomId, hexData, lines, units, actor, now).error.None?
    ensures var withLines := InsertLines(Painted(db, roomId, hexData, actor, now), roomId, LineKeys(roomId, lines, 0), lines, actor, now);
            && withLines.Completed?
            && withLines.state.units == UnitsOutside(db, roomId)
            && var withUnits := InsertUnits(withLines.state, roomId, UnitKeys(Keyed(units)), Keyed(units), actor, now);
               && withUnits.Completed?
               && ReplaceRoomState(db, roomId, hexData, lines, units, actor, now).state.units == withUnits.state.units
  {
  }

  /** Any database holding the units of completed inserts has the room's new units under their keys and the other rooms' units unchanged. */
  lemma InsertedUnits(d: Db, roomId: RoomId, keys: seq<UnitId>, kept: seq<UnitInput>, actor: Option<string>, now: Time, s: Db)
    requires |keys| == |kept|
    requires InsertUnits(d, roomId, keys, kept, actor, now).Completed?
    requires s.units == InsertUnits(d, roomId, keys, kept, actor, now).state.units
    requires UnitsOutside(d, roomId) == d.units
    ensures forall id :: id in s.units && s.units[id].roomId == roomId <==> id in keys
    ensures forall i | 0 <= i < |kept| :: HasUnitFields(kept[i]) && s.units[keys[i]] == NewUnitRow(roomId, kept[i], actor, now)
    ensures UnitsOutside(s, roomId) == d.units
  {
    InsertUnitsRows(d, roomId, keys, kept, actor, now);
    forall id | id in keys ensures id in s.units && s.units[id].roomId == roomId {
      var i :| 0 <= i < |keys| && keys[i] == id;
    }
    assert forall id | id in d.units :: d.units[id].roomId != roomId;
    assert UnitsOutside(s, roomId) == UnitsOutside(d, roomId);
  }

  /** An accepted import stores exactly the units that carry an id, and keeps other rooms' units. */
  lemma ReplaceRoomStateUnits(db: Db, roomId: RoomId, hexData: map<HexKey, HexInfo>, lines: seq<Line>,
                              units: seq<UnitInput>, actor: Option<string>, now: Time)
    requires ReplaceRoomState(db, roomId, hexData, lines, units, actor, now).error.None?
    ensures var s := ReplaceRoomState(db, roomId, hexData, lines, units, actor, now).state;
            && (forall id :: id in s.units && s.units[id].roomId == roomId <==> id in UnitKeys(Keyed(units)))
            && (forall i | 0 <= i < |Keyed(units)| :: HasUnitFields(Keyed(units)[i]) && s.units[UnitKeys(Keyed(units))[i]] == NewUnitRow(roomId, Keyed(units)[i], actor, now))
            && UnitsOutside(s, roomId) == UnitsOutside(db, roomId)
  {
    ReplaceCommittedUnits(db, roomId, hexData, lines, units, actor, now);
    var before := InsertLines(Painted(db, roomId, hexData, actor, now), roomId, LineKeys(roomId, lines, 0), lines, actor, now).state;
    assert UnitsOutside(before, roomId) == before.units;
    InsertedUnits(before, roomId, UnitKeys(Keyed(units)), Keyed(units), actor, now,
                  ReplaceRoomState(db, roomId, hexData, lines, units, actor, now).state);
  }

  // ---------------------------------------------------------------- reads

  /** A unit as `get_room_state` reports it; `moved` only when `moved_by` is set. */
  datatype UnitView = UnitView(name: string, color: Color, hexKey: HexKey, createdBy: Option<string>,
                               createdAt: Time, moved: Option<Move>)

  datatype Move = Move(mover: string, at: Option<Time>)

  /** The full state of one room as `get_room_state` returns it. Lines and units are keyed by id. */
  datatype RoomState = RoomState(name: string, hexData: map<HexKey, Color>, lines: map<LineId, Line>,
                                 units: map<UnitId, UnitView>, createdAt: Time, lastActivity: Time,
                                 owner: Option<string>, hasPassword: bool, passwordHash: Option<string>,
                                 version: int)

  function RoomHexKeys(db: Db, roomId: RoomId): set<HexKey> {
    set p | p in db.hexes && p.0 == roomId :: p.1
  }

  /** A stored unit as reported: its columns as stored, and `moved` only when `moved_by` is truthy. */
  function ViewUnit(row: UnitRow): (v: UnitView)
    ensures v.name == row.name && v.color == row.color && v.hexKey == row.hexKey
    ensures v.createdBy == row.createdBy && v.createdAt == row.createdAt
    ensures v.moved.Some? <==> Text.Truthy(row.movedBy)
    ensures v.moved.Some? ==> v.moved.value == Move(row.movedBy.value, row.movedAt)
  {
    UnitView(row.name, row.color, row.hexKey, row.createdBy, row.createdAt,
             if Text.Truthy(row.movedBy) then Some(Move(row.movedBy.value, row.movedAt)) else None)
  }

  /** The `hex_data` of `get_room_state`: one entry per stored cell of the room. */
  function RoomHexes(db: Db, roomId: RoomId): (m: map<HexKey, Color>)
    ensures forall k :: k in m <==> (roomId, k) in db.hexes
    ensures forall k | k in m :: m[k] == StoredColor(db, roomId, k)
  {
    assert forall k :: k in RoomHexKeys(db, roomId) <==> (roomId, k) in db.hexes by {
      forall k | (roomId, k) in db.hexes
        ensures k in RoomHexKeys(db, roomId)
      {
        var p := (roomId, k);
        assert p.1 == k;
      }
    }
    map k | k in RoomHexKeys(db, roomId) :: db.hexes[(roomId, k)].fillColor
  }

  /** The `lines` of `get_room_state`: the room's stored payloads by line id. */
  function RoomLines(db: Db, roomId: RoomId): (m: map<LineId, Line>)
    ensures forall id :: id in m <==> id in db.lines && db.lines[id].roomId == roomId
    ensures forall id | id in m :: m[id] == db.lines[id].payload
  {
    map id | id in db.lines && db.lines[id].roomId == roomId :: db.lines[id].payload
  }

  /** The `units` of `get_room_state`: the room's stored units, as reported, by unit id. */
  function RoomUnits(db: Db, roomId: RoomId): (m: map<UnitId, UnitView>)
    ensures forall id :: id in m <==> id in db.units && db.units[id].roomId == roomId
    ensures forall id | id in m :: m[id] == ViewUnit(db.units[id])
  {
    map id | id in db.units && db.units[id].roomId == roomId :: ViewUnit(db.units[id])
  }

  /** `get_room_state`: the room's metadata with its hexes, lines and units; an unknown room raises. */
  function GetRoomState(db: Db, roomId: RoomId): (r: Result<RoomState, DbError>)
    ensures r.Failure? <==> roomId !in db.rooms
    ensures r.Failure? ==> r.error == RoomNotFound(roomId)
    ensures r.Success? ==>
              && r.value.version == db.rooms[roomId].version
              && r.value.name == db.rooms[roomId].name && r.value.owner == db.rooms[roomId].owner
              && r.value.hasPassword == db.rooms[roomId].hasPassword
              && r.value.passwordHash == db.rooms[roomId].passwordHash
              && r.value.createdAt == db.rooms[roomId].createdAt
              && r.value.lastActivity == db.rooms[roomId].lastActivity
              && (forall k :: k in r.value.hexData <==> (roomId, k) in db.hexes)
              && (forall k | k in r.value.hexData :: r.value.hexData[k] == StoredColor(db, roomId, k))
              && (forall id :: id in r.value.lines <==> id in db.lines && db.lines[id].roomId == roomId)
              && (forall id | id in r.value.lines :: r.value.lines[id] == db.lines[id].payload)
              && (forall id :: id in r.value.units <==> id in db.units && db.units[id].roomId == roomId)
              && (forall id | id in r.value.units :: r.value.units[id] == ViewUnit(db.units[id]))
    ensures r.Success? ==> r.value.lines == RoomLines(db, roomId) && r.value.units == RoomUnits(db, roomId)
  {
    if roomId !in db.rooms then Failure(RoomNotFound(roomId))
    else
      var room := db.rooms[roomId];
      Success(RoomState(room.name, RoomHexes(db, roomId), RoomLines(db, roomId), RoomUnits(db, roomId),
                        room.createdAt, room.lastActivity, room.owner, room.hasPassword, room.passwordHash,
                        room.version))
  }

  /** Sparse round trip: after painting a cell, reading the room shows that colour, or no entry for the default. */
  lemma SparseRoundTrip(db: Db, roomId: RoomId, key: HexKey, color: Color, actor: Option<string>, now: Time)
    requires roomId in db.rooms
    ensures var state := GetRoomState(UpdateHex(db, roomId, key, color, actor, now), roomId);
            && state.Success?
            && (key in state.value.hexData <==> color != Default)
            && (key in state.value.hexData ==> state.value.hexData[key] == color)
  {
  }

  /** A line just added is read back with the room, next to the room's earlier lines. */
  lemma AddLineShown(db: Db, roomId: RoomId, lineId: LineId, line: Line, actor: Option<string>, now: Time)
    requires roomId in db.rooms
    requires AddLine(db, roomId, lineId, line, actor, now).error.None?
    ensures var before := GetRoomState(db, roomId);
            var view := GetRoomState(AddLine(db, roomId, lineId, line, actor, now).state, roomId);
            && before.Success? && view.Success?
            && lineId in view.value.lines && view.value.lines[lineId] == line
            && (forall id :: id in view.value.lines <==> id == lineId || id in before.value.lines)
            && (forall id | id in before.value.lines :: view.value.lines[id] == before.value.lines[id])
  {
  }

  /** After `delete_lines_by_hex`, the room reads back with exactly its lines that have no endpoint on the cell. */
  lemma DeleteLinesByHexShown(db: Db, roomId: RoomId, key: HexKey)
    requires roomId in db.rooms
    ensures var before := GetRoomState(db, roomId);
            var view := GetRoomState(DeleteLinesByHex(db, roomId, key), roomId);
            && before.Success? && view.Success?
            && (forall id :: id in view.value.lines <==> id in before.value.lines && !EndsAt(before.value.lines[id], key))
            && (forall id | id in view.value.lines :: view.value.lines[id] == before.value.lines[id])
  {
    RoomLinesAfterDelete(db, DeleteLinesByHex(db, roomId, key), roomId, key);
  }

  lemma RoomLinesAfterDelete(db: Db, after: Db, roomId: RoomId, key: HexKey)
    requires forall id :: id in after.lines <==> id in db.lines && !LineOnCell(db.lines[id], roomId, key)
    requires forall id | id in after.lines :: after.lines[id] == db.lines[id]
    ensures var before := RoomLines(db, roomId);
            var view := RoomLines(after, roomId);
            && (forall id :: id in view <==> id in before && !EndsAt(before[id], key))
            && (forall id | id in view :: view[id] == before[id])
  {
  }

  /**
   * A moved unit reads back on its new cell, marked as moved exactly when
   * the mover is truthy; the room's other units read back as before.
   */
  lemma MoveUnitShown(db: Db, roomId: RoomId, unitId: UnitId, newKey: HexKey, actor: Option<string>, now: Time)
    requires roomId in db.rooms && unitId in db.units && db.units[unitId].roomId == roomId
    ensures var before := GetRoomState(db, roomId);
            var view := GetRoomState(MoveUnit(db, roomId, unitId, newKey, actor, now), roomId);
            && before.Success? && view.Success?
            && view.value.units.Keys == before.value.units.Keys
            && unitId in view.value.units
            && view.value.units[unitId].hexKey == newKey
            && view.value.units[unitId].name == before.value.units[unitId].name
            && (view.value.units[unitId].moved.Some? <==> Text.Truthy(actor))
            && (Text.Truthy(actor) ==> view.value.units[unitId].moved == Some(Move(actor.value, Some(now))))
            && (forall id | id in view.value.units && id != unitId :: view.value.units[id] == before.value.units[id])
  {
    var after := MoveUnit(db, roomId, unitId, newKey, actor, now);
    RoomUnitsAfterMove(db, after, roomId, unitId, db.units[unitId].(hexKey := newKey, movedAt := Some(now), movedBy := actor));
  }

  lemma RoomUnitsAfterMove(db: Db, after: Db, roomId: RoomId, unitId: UnitId, moved: UnitRow)
    requires unitId in db.units && db.units[unitId].roomId == roomId && moved.roomId == roomId
    requires after.units == db.units[unitId := moved]
    ensures var before := RoomUnits(db, roomId);
            var view := RoomUnits(after, roomId);
            && view.Keys == before.Keys && unitId in view && view[unitId] == ViewUnit(moved)
            && (forall id | id in view && id != unitId :: view[id] == before[id])
  {
  }

  /** After `delete_units_by_hex`, no unit of the room reads back on the cell, and its units elsewhere stay. */
  lemma DeleteUnitsByHexShown(db: Db, roomId: RoomId, key: HexKey)
    requires roomId in db.rooms
    ensures var before := GetRoomState(db, roomId);
            var view := GetRoomState(DeleteUnitsByHex(db, roomId, key), roomId);
            && before.Success? && view.Success?
            && (forall id | id in view.value.units :: view.value.units[id].hexKey != key)
            && (forall id :: id in view.value.units <==> id in before.value.units && before.value.units[id].hexKey != key)
            && (forall id | id in view.value.units :: view.value.units[id] == before.value.units[id])
  {
  }

  // ---------------------------------------------------------------- deleting a room

  /**
   * As written, deleting a room and creating one with the same id hands the
   * new room the old room's painted cells: nothing removed the hex rows.
   */
  lemma DeleteRoomLeavesOrphans(db: Db, roomId: RoomId, key: HexKey, name: string, owner: Option<string>,
                                passwordHash: Option<string>, now: Time)
    requires (roomId, key) in db.hexes && Sparse(db)
    ensures var again := CreateRoom(DeleteRoom(db, roomId), roomId, name, owner, passwordHash, now);
            && again.error.None?
            && StoredColor(again.state, roomId, key) == db.hexes[(roomId, key)].fillColor != Default
            && GetRoomState(again.state, roomId).Success?
            && key in GetRoomState(again.state, roomId).value.hexData
  {
  }

  /** A concrete instance: the room "R" painted red at "A", deleted and re-created, still shows red at "A". */
  lemma DeleteRoomOrphanExample()
    ensures var db := Db(map["R" := RoomRow("old", None, false, None, 0, 0, 3)],
                         map[("R", "A") := HexRow("red", 0, None)], map[], map[]);
            var again := CreateRoom(DeleteRoom(db, "R"), "R", "new", None, None, 1);
            again.error.None? && StoredColor(again.state, "R", "A") == "red"
  {
    var db := Db(map["R" := RoomRow("old", None, false, None, 0, 0, 3)],
                 map[("R", "A") := HexRow("red", 0, None)], map[], map[]);
    assert "red" != Default;
    DeleteRoomLeavesOrphans(db, "R", "A", "new", None, None, 1);
  }

  /** With the cascade the schema declares, a room re-created under a deleted room's id starts empty. */
  lemma DeleteRoomCascadeStartsEmpty(db: Db, roomId: RoomId, name: string, owner: Option<string>,
                                     passwordHash: Option<string>, now: Time)
    ensures var again := CreateRoom(DeleteRoomCascade(db, roomId), roomId, name, owner, passwordHash, now);
            && again.error.None?
            && GetRoomState(again.state, roomId).Success?
            && GetRoomState(again.state, roomId).value.hexData == map[]
            && GetRoomState(again.state, roomId).value.lines == map[]
            && GetRoomState(again.state, roomId).value.units == map[]
            && forall k :: StoredColor(again.state, roomId, k) == Default
  {
    var again := CreateRoom(DeleteRoomCascade(db, roomId), roomId, name, owner, passwordHash, now);
    var view := GetRoomState(again.state, roomId).value;
    assert view.hexData.Keys == {};
    assert view.lines.Keys == {};
    assert view.units.Keys == {};
  }
}

=== FILE: text.dfy ===
/** The few Python string operations the server applies to client-supplied text. */
module Text {
  import opened Wrappers

  /** The characters Python's `str.isspace()` accepts, hence the ones `str.strip()` removes. */
  predicate IsSpace(c: char) {
    var n := c as int;
    (9 <= n <= 13) || (28 <= n <= 32) || n == 0x85 || n == 0xA0 || n == 0x1680
    || (0x2000 <= n <= 0x200A) || n == 0x2028 || n == 0x2029 || n == 0x202F
    || n == 0x205F || n == 0x3000
  }

  /** Every character of `s` is white space (true of the empty string). */
  predicate AllSpace(s: string) {
    forall i | 0 <= i < |s| :: IsSpace(s[i])
  }

  function TrimStart(s: string): (r: string)
    ensures |r| <= |s| && r == s[|s| - |r|..]
    ensures r == [] || !IsSpace(r[0])
    ensures AllSpace(s[..|s| - |r|])
  {
    if |s| > 0 && IsSpace(s[0]) then TrimStart(s[1..]) else s
  }

  function TrimEnd(s: string): (r: string)
    ensures |r| <= |s| && r == s[..|r|]
    ensures r == [] || !IsSpace(r[|r| - 1])
    ensures AllSpace(s[|r|..])
  {
    if |s| > 0 && IsSpace(s[|s| - 1]) then TrimEnd(s[..|s| - 1]) else s
  }

  /** How many white-space characters `str.strip()` removes from the front of `s`. */
  function LeadingSpace(s: string): (n: nat)
    ensures n <= |s|
  {
    |s| - |TrimStart(s)|
  }

  /** Python's `str.strip()`: drop leading and trailing white space. */
  function Strip(s: string): (r: string)
    ensures LeadingSpace(s) + |r| <= |s|
    ensures r == s[LeadingSpace(s)..LeadingSpace(s) + |r|]
    ensures AllSpace(s[..LeadingSpace(s)]) && AllSpace(s[LeadingSpace(s) + |r|..])
    ensures r == [] || (!IsSpace(r[0]) && !IsSpace(r[|r| - 1]))
  {
    var t := TrimStart(s);
    var r := TrimEnd(t);
    var n := LeadingSpace(s);
    assert r == s[n..n + |r|] by {
      assert t == s[n..];
    }
    assert AllSpace(s[n + |r|..]) by {
      assert t[|r|..] == s[n + |r|..];
    }
    r
  }

  /** `s.strip()` is empty exactly when `s` consists of white space only. */
  lemma StripEmptyIffBlank(s: string)
    ensures Strip(s) == [] <==> AllSpace(s)
  {
    var n := LeadingSpace(s);
    var r := Strip(s);
    if r == [] {
      forall i | 0 <= i < |s|
        ensures IsSpace(s[i])
      {
        assert s[i] == s[..n][i];
      }
    } else {
      assert r[0] == s[n];
    }
  }

  /** Python's `str.upper()` on one character, for the ASCII letters. */
  function UpperChar(c: char): (u: char)
    ensures 'a' <= c <= 'z' ==> u as int == c as int - 32
    ensures !('a' <= c <= 'z') ==> u == c
  {
    if 'a' <= c <= 'z' then (c as int - 32) as char else c
  }

  /** Python's `str.upper()`, for the ASCII letters. */
  function Upper(s: string): (r: string)
    ensures |r| == |s|
    ensures forall i | 0 <= i < |s| :: r[i] == UpperChar(s[i])
  {
    seq(|s|, i requires 0 <= i < |s| => UpperChar(s[i]))
  }

  /** Upper-casing twice is upper-casing once, so an upper-case room code is its own lookup key. */
  lemma UpperIdempotent(s: string)
    ensures Upper(Upper(s)) == Upper(s)
  {
    assert forall i | 0 <= i < |s| :: UpperChar(UpperChar(s[i])) == UpperChar(s[i]);
  }

  /** Python truthiness of an optional string: present and non-empty. */
  predicate Truthy(o: Option<string>) {
    o.Some? && o.value != ""
  }

  function Digit(d: nat): (c: char)
    requires d < 10
    ensures '0' <= c <= '9' && c as int - '0' as int == d
  {
    ('0' as int + d) as char
  }

  /** Every character is a decimal digit. */
  predicate AllDigits(s: string) {
    forall i | 0 <= i < |s| :: '0' <= s[i] <= '9'
  }

  /** The number a string of decimal digits denotes, most significant digit first. */
  function DigitsValue(s: string): nat
    requires AllDigits(s)
  {
    if s == [] then 0 else DigitsValue(s[..|s| - 1]) * 10 + (s[|s| - 1] as int - '0' as int)
  }

  /** `str(n)` for a natural number: its decimal digits, without leading zeros. */
  function NatToString(n: nat): (r: string)
    ensures |r| >= 1 && AllDigits(r)
    ensures DigitsValue(r) == n
    ensures r[0] == '0' ==> n == 0
    ensures n < 10 <==> |r| == 1
  {
    if n < 10 then [Digit(n)]
    else
      var r := NatToString(n / 10) + [Digit(n % 10)];
      assert r[..|r| - 1] == NatToString(n / 10);
      r
  }

  /** Different naturals render differently: the decimal digits determine the number. */
  lemma NatToStringInjective(m: nat, n: nat)
    requires NatToString(m) == NatToString(n)
    ensures m == n
  {
  }
}

=== FILE: wrappers.dfy ===
/** Failure-compatible wrappers shared by every module of the model. */
module Wrappers {

  /** A value that may be absent: a missing payload field, a NULL column. */
  datatype Option<+T> = None | Some(value: T) {

    /** The wrapped value, or `default` when absent (Python's `dict.get(k, default)`). */
    function GetOr(default: T): T {
      match this
      case Some(v) => v
      case None => default
    }
  }

  /** The outcome of a read that may fail with an error value. */
  datatype Result<+R, +E> = Success(value: R) | Failure(error: E)
}
